=== FILE: README.md ===
# Collaboration state of the CodeFlow backend, in Dafny

This project models the part of the CodeFlow backend that keeps shared
editing state and decides who may do what. The pieces are:

- **File locks and presence.** The editor socket handlers keep this state in
  a Redis store:
  - `file-lock:<path>` holds a lock value with a 300-unit time-to-live;
  - `project-users:<projectId>` and `file-users:<projectId>:<path>` are
    presence sets.
- **The lock helper API.** It writes raw user ids under the same keys.
- **The `/editor` namespace.** It covers admission, project presence,
  `getPort` and disconnect clean-up.
- **The sandbox-container guard and the port lookup.**
- **The project controller and the access middleware.** These hold the
  membership and ownership rules.
- **The project service.** It scaffolds and removes project directories.
- **Registration, login and the user schema.** These cover the validation
  order and the setters.

## How it is modelled

**The store.** The store is two immutable maps plus a logical clock
(`store.dfy`):
- strings carry a deadline, and a string is visible while `now` is before
  its deadline;
- sets lose their key when they become empty, as in Redis;
- `KEYS` replies are parameters whose contents must enumerate the matching
  keys, because Redis chooses their order.

**Socket handlers.** Each handler is a pure step from a store to a new
store and the list of `(room or caller, event)` emissions it makes.

**Lock values.** Two encodings are kept apart:
- the socket handlers write the JSON text `{"userId":"…"}` (`lock_json.dfy`
  has the encoder and a reader standing in for `JSON.parse`);
- the helper API writes and compares the raw id.

The decoder the join and leave handlers use accepts both encodings. The
`disconnect` sweep uses an unguarded `JSON.parse`, so a raw id that is not
JSON ends the sweep at that key. The model carries this as an `aborted`
flag.

**Docker** is reduced to its container listing: names, whether running, and
the public port of each port entry. A failing Docker call is a parameter
naming the call that throws.

**Mongo collections** are a map of projects and a sequence of users, in
natural order. The model takes `findOne` to return the first user that
matches; MongoDB itself promises no order without a sort (see "## Left
out").

**Library calls are parameters.** This covers:
- JWT verification (a map from verifying tokens to their claim);
- bcrypt (`matches`);
- the email pattern (`isEmail`);
- uuid generation, the avatar and the hashed password;
- whether a signing secret is configured.

**JavaScript semantics.** The model uses:
- truthiness of optional strings;
- UTF-16 `.length`;
- `.trim()` with the JavaScript white-space set;
- Mongoose's `required`, which rejects `""`.

**Quirks kept as written, with lemmas that exhibit them:**

- **Unlock notices go to the wrong room.** The disconnect sweep parses
  `file-lock:<path>` keys with the presence-key parser. The `fileUnlocked`
  notice therefore goes to room `<path>:` with an empty file path instead
  of `<projectId>:<path>` (`EditorDisconnect.DisconnectUnlockRoom`,
  `Keys.LockKeyRoomMisses`).
- **Raw lock values stop the disconnect sweep.** A lock written by the helper
  API as a raw id that is not JSON text (an id starting with a letter, say)
  makes the next disconnect throw before anything is cleared
  (`EditorDisconnect.RawLockAbortsSweep`).
- **Names are matched two different ways.** The container guard matches the
  exact name `/project-<id>`. The port lookup's name filter is a substring
  match, so the port for `project-1` can come from a running `project-12`
  (`Containers.PortLookupMatchesLongerName`).
- **The namespace sweep scans the wrong keys.** The disconnect scan uses
  `project-users:<projectId>:*`. That prefix also reaches project
  `<projectId>:x` (`EditorNamespace.SweepReachesLongerProject`). It never
  reaches the `file-users:` sets the editor handlers keep
  (`EditorNamespace.FilePresenceNotScanned`).
- **A repeated namespace disconnect broadcasts again.** It changes nothing in
  the store but broadcasts `userLeft` again
  (`EditorNamespace.DisconnectIdempotent`).
- **Padded names and emails slip past registration checks.**
  - The duplicate lookup trims the username filter, through the schema
    setter, but compares the found user's name with the untrimmed input. A
    padded copy of an existing name therefore gets past the "Username is
    already taken" check (`AuthController.PaddedNameSkipsDuplicateCheck`).
  - A padded email is stored trimmed but looked up untrimmed at login, so
    that exact input cannot log in (`AuthController.PaddedEmailCannotLogIn`).
- **An unsupported framework leaves its directory behind.** It throws outside
  the `try`, so the directory made for it stays
  (`ProjectService.FailedCreateCleansUp`).

## Model

| member | source | states |
|---|---|---|
| Store.SetNx | src/socket-handlers/editorHandler.ts:242 | set-if-absent succeeds exactly when no live value is at the key; it then stores the value with deadline now + ttl and touches no other key; otherwise nothing changes |
| Store.SRem | src/socket-handlers/editorHandler.ts:140 | removing a member removes exactly that member from that key's set, drops a set that becomes empty, and leaves a store without empty sets unchanged when the member was absent |
| Store.ExpiresAfterTtl | src/socket-handlers/editorHandler.ts:242 | a value written with a time-to-live is visible until the clock reaches its deadline and gone from then on |
| Keys.ParsePresenceKey | src/socket-handlers/editorHandler.ts:316-317 | splitting a presence key built as `file-users:<projectId>:<path>` (lines 10-11) at `:` and re-joining the tail recovers project and path whenever the project id has no `:` |
| Keys.ParseLockKey | src/socket-handlers/editorHandler.ts:305-306 | the same parse applied to `file-lock:<path>` takes the path's first segment as the project and the rest as the path; for a path without `:` the path comes back empty |
| Keys.LockKeyRoomMisses | src/socket-handlers/editorHandler.ts:305-307 | for a path without `:` and a non-empty project id, the room derived from a lock key is `<path>:` and never the file's room `<projectId>:<path>` |
| LockJson.ReadQuoted | src/socket-handlers/editorHandler.ts:242 | reading the escaped text of any string followed by a closing quote gives that string back and stops right after the quote |
| LockJson.ReadSurrogatePair | src/socket-handlers/editorHandler.ts:302 | an escaped surrogate pair in a lock value reads as the one character it encodes, as `JSON.parse` reads it, and a high half escaped alone is rejected |
| LockJson.ReadEncodedHolder | src/socket-handlers/editorHandler.ts:242 | the JSON lock value written for any user id reads back as that user id |
| LockJson.EncodeHolderInjective | src/socket-handlers/editorHandler.ts:242 | distinct holders get distinct lock values |
| Events.DisplayName | src/socket-handlers/editorHandler.ts:292 | the display name is the looked-up profile's username when there is a non-empty one, and "Unknown" otherwise |
| Events.Roster | src/socket-handlers/editorHandler.ts:45-57 | the user list has exactly one entry per member id, with the looked-up name, avatar and socket id or their fallbacks |
| EditorHandler.JoinProjectRoom | src/socket-handlers/editorHandler.ts:26-63 | without a profile nothing happens; otherwise the user is added to the project's presence set and nothing else changes, the room gets `userJoinedProject` with the id, the profile's raw username and avatar and the socket id, and the caller gets the roster of the updated set, itself included |
| EditorHandler.LeaveProjectRoom | src/socket-handlers/editorHandler.ts:65-72 | the user is removed from the project set, nothing else changes, and the room hears the leave |
| EditorHandler.JoinFileRoom | src/socket-handlers/editorHandler.ts:74-135 | the user joins the file set and only that set changes; the room hears the join; the joiner gets the file roster; the two lock notices are sent exactly when a lock value is set, and they name the decoded holder |
| EditorHandler.LeaveFileRoom | src/socket-handlers/editorHandler.ts:137-162 | the user leaves the file set; the lock is deleted and `fileUnlocked` sent exactly when the decoded holder is the caller; otherwise no string changes |
| EditorHandler.LockFile | src/socket-handlers/editorHandler.ts:238-256 | an unlocked path is locked for the caller with the JSON value, deadline now + 300 and a broadcast to `<projectId>:<path>`, touching no other key; a held path leaves the store unchanged and tells only the caller the current holder, or nothing when the value is not JSON |
| EditorHandler.TransferLock | src/socket-handlers/editorHandler.ts:258-283 | no lock, a corrupt value and a non-holder each give their own error to the caller only and change nothing; the holder's transfer names the new holder with a fresh 300 deadline, touches no other key and broadcasts it |
| EditorHandler.RequestLock | src/socket-handlers/editorHandler.ts:285-295 | the store is untouched and the file room gets one `fileLockRequested` with the path, the project id, the requester's id and the profile's username, or "Unknown" when there is none or it is empty |
| EditorHandler.DecodeHolderAcceptsBoth | src/socket-handlers/editorHandler.ts:110-123 | the decoder yields the holder for JSON values, the raw text for values not starting with `{`, and falls back to the raw text when parsing fails |
| EditorHandler.ContendedLockNamesHolder | src/socket-handlers/editorHandler.ts:242-254 | after one user locks a free path, a second user's lock request leaves the store as it is and is told the first user holds it |
| EditorHandler.UnreleasedLockExpires | src/socket-handlers/editorHandler.ts:242 | a lock never released is gone after 300 units and the next request from anyone is granted |
| EditorHandler.TransferByHolderOnly | src/socket-handlers/editorHandler.ts:266-282 | only the holder named by the value can move the lock; anyone else is refused with no change |
| EditorHandler.TransferThereAndBack | src/socket-handlers/editorHandler.ts:258-283 | transferring to another user and back restores the lock value and every other key |
| EditorHandler.LeaveReleasesOwnLockOnly | src/socket-handlers/editorHandler.ts:147-162 | leaving a file room releases a lock held by the leaver in either encoding and keeps anyone else's |
| EditorHandler.JoinThenLeaveFileRoom | src/socket-handlers/editorHandler.ts:74-162 | joining then leaving a file room, for a user not present and not holding its lock, restores every set and string |
| EditorHandler.JoinThenLeaveProjectRoom | src/socket-handlers/editorHandler.ts:26-72 | joining then leaving a project room, for a user not present, restores every set and string |
| EditorHandler.HandleKeepsJsonLocks | src/socket-handlers/editorHandler.ts:238-283 | every socket handler keeps every visible lock value readable as JSON, and a handler for one path leaves every other lock as it was |
| EditorHandler.AdvanceKeepsJsonLocks | src/socket-handlers/editorHandler.ts:242 | the passing of time keeps every visible lock value readable, since expiry only hides values |
| EditorDisconnect.SweepLocks | src/socket-handlers/editorHandler.ts:297-309 | the lock sweep only deletes strings, keeps the sets and the clock, and every notice is the `fileUnlocked` of a scanned key whose lock named the user, sent to the room parsed from that key |
| EditorDisconnect.SweepLocksExact | src/socket-handlers/editorHandler.ts:299-309 | over a scan without repeated keys, a lock sweep that did not throw sends exactly one `fileUnlocked` per scanned lock naming the user, in scan order, and nothing else |
| EditorDisconnect.SweepLocksKeeps | src/socket-handlers/editorHandler.ts:299-309 | every record that does not name the leaving user survives the lock sweep |
| EditorDisconnect.SweepLocksClears | src/socket-handlers/editorHandler.ts:299-309 | a lock sweep that did not throw leaves no scanned key naming the leaving user |
| EditorDisconnect.SweepLocksAborts | src/socket-handlers/editorHandler.ts:300-302 | the sweep throws exactly when some scanned key holds a set value that is not JSON |
| EditorDisconnect.SweepLocksNotifies | src/socket-handlers/editorHandler.ts:299-309 | a lock sweep that did not throw sends the `fileUnlocked` notice of every scanned key whose lock named the user |
| EditorDisconnect.SweepLocksIdle | src/socket-handlers/editorHandler.ts:299-309 | with no scanned key naming the user or unreadable, the sweep changes nothing and says nothing |
| EditorDisconnect.SweepPresence | src/socket-handlers/editorHandler.ts:311-322 | each scanned set loses the user and every other set is unchanged; strings are untouched; nothing happens when the user is in none; every notice is the `fileUserLeft` of a scanned set that held the user, sent to the room parsed from that key |
| EditorDisconnect.SweepPresenceExact | src/socket-handlers/editorHandler.ts:311-322 | over a scan without repeated keys, exactly one `fileUserLeft` per scanned set that held the user, in scan order, and nothing else |
| EditorDisconnect.SweepPresenceNotifies | src/socket-handlers/editorHandler.ts:311-322 | every scanned set that held the user gets its `fileUserLeft` notice |
| EditorDisconnect.Disconnect | src/socket-handlers/editorHandler.ts:297-322 | the disconnect only deletes strings and only removes the user from scanned sets; a throw leaves every set as it was and has sent only unlock notices; every notice is the unlock notice of a lock that named the user or the left notice of a set that held the user (that it clears them all is DisconnectClears, that a repeat does nothing is DisconnectIdempotent) |
| EditorDisconnect.DisconnectClears | src/socket-handlers/editorHandler.ts:297-322 | the disconnect throws exactly when some visible lock is set but not JSON; otherwise no lock names the user and no `file-users:` set holds it; other users' locks and members are unchanged and only `file-users:` sets change |
| EditorDisconnect.DisconnectIdempotent | src/socket-handlers/editorHandler.ts:297-322 | a second disconnect after one that did not throw changes nothing and emits nothing |
| EditorDisconnect.JsonLocksNeverAbort | src/socket-handlers/editorHandler.ts:302 | when every lock is a JSON value, as the socket handlers write them, the disconnect never throws |
| EditorDisconnect.RawLockAbortsSweep | src/socket-handlers/editorHandler.ts:300-302 | a raw-id lock from the helper API whose id is not JSON text (it starts with a letter and is not `true` or `false`), with no other state, makes the disconnect throw with nothing cleared |
| EditorDisconnect.DisconnectUnlockRoom | src/socket-handlers/editorHandler.ts:303-307 | a lock taken through the socket handler on a path without `:` is released on disconnect, but the notice goes to room `<path>:` with an empty file path |
| LockManager.LockFile | src/utils/lockManager.ts:5-9 | the result is true exactly when the key was absent; the raw id is then stored with deadline now + 300 and nothing else changes; otherwise the store, value and expiry are unchanged |
| LockManager.UnlockFile | src/utils/lockManager.ts:11-17 | the lock is deleted exactly when its value equals the id; otherwise, including when the key is absent, the store is unchanged |
| LockManager.GetFileLock | src/utils/lockManager.ts:19-22 | a pure read: a value is returned exactly when a live lock key exists, and it is the stored value |
| LockManager.LockThenUnlock | src/utils/lockManager.ts:5-17 | locking a free path and unlocking it as the same user leaves it free and every other key as it was |
| LockManager.HeldLockResists | src/utils/lockManager.ts:5-17 | on a held path, another user's lock fails with no change and their unlock changes nothing |
| EditorNamespace.Admit | src/socket-handlers/editorNamespace.ts:20-37 | a missing or empty token gives "Authentication error", a token that does not verify gives "Authentication failed", and only a verified token admits, carrying its claim |
| EditorNamespace.Connect | src/socket-handlers/editorNamespace.ts:46-59 | a connection without a truthy project id or user id is dropped with the store untouched; otherwise the user is added to `project-users:<projectId>` and receives that set after the add, which contains it |
| EditorNamespace.AdmittedSocketConnects | src/socket-handlers/editorNamespace.ts:20-59 | a socket admitted with a truthy `userId` claim, connecting for a project, is kept and finds itself among the user ids it receives |
| EditorNamespace.ConnectThenDisconnect | src/socket-handlers/editorNamespace.ts:40-97 | connecting then disconnecting, for a user not yet in the project's set, restores that set; other sets differ at most by the user and no string changes |
| EditorNamespace.GetPort | src/socket-handlers/editorNamespace.ts:65-71 | the reply carries a port exactly when the lookup for `project-<projectId>` finds one, and it is that container's first public port |
| EditorNamespace.LeaveFileKeys | src/socket-handlers/editorNamespace.ts:87-96 | each scanned set loses the user and no other set changes; the i-th notice goes to room `<projectId>:<path>`, where the path is the i-th key with the prefix removed |
| EditorNamespace.Disconnect | src/socket-handlers/editorNamespace.ts:74-97 | the user leaves the project's presence set and every scanned set, every other member stays and every unscanned set other than the project's is unchanged; the project room hears `userLeft` first, then one `fileUserLeft` per scanned key; strings are untouched |
| EditorNamespace.ProjectKeyNotScanned | src/socket-handlers/editorNamespace.ts:87 | the project's own presence key never matches the file-key scan |
| EditorNamespace.FilePresenceNotScanned | src/socket-handlers/editorNamespace.ts:87 | no `file-users:` presence key, for any project, matches the scan |
| EditorNamespace.DisconnectRemoves | src/socket-handlers/editorNamespace.ts:74-97 | afterwards the user is in neither the project set nor any scanned set; other sets and other members are unchanged |
| EditorNamespace.ReportedPathIsSuffix | src/socket-handlers/editorNamespace.ts:87-95 | every reported path, put back after the prefix, gives the scanned key, and the notice goes to `<projectId>:<path>` |
| EditorNamespace.DisconnectIdempotent | src/socket-handlers/editorNamespace.ts:74-97 | a second disconnect leaves the store as the first left it, yet broadcasts `userLeft` again |
| EditorNamespace.SweepReachesLongerProject | src/socket-handlers/editorNamespace.ts:87-90 | leaving project `p` removes the user from a set of project `p:x` and reports path `x` |
| Containers.GetContainerPort | src/controllers/containers/handleContainerCreate.ts:87-98 | a port is returned exactly when the listing succeeds and the first running container passing the name filter has a non-zero first public port, and it is that port |
| Containers.FindExisting | src/controllers/containers/handleContainerCreate.ts:32-34 | the result is the first container carrying exactly `/<name>`, or none when no container does |
| Containers.Enter | src/controllers/containers/handleContainerCreate.ts:23-28 | the guard admits exactly when the project is not in progress and then marks it; otherwise the set is unchanged |
| Containers.Leave | src/controllers/containers/handleContainerCreate.ts:82-84 | the `finally` clause unmarks the project and keeps every other mark |
| Containers.Work | src/controllers/containers/handleContainerCreate.ts:30-80 | an existing container is never re-created; it is started exactly when it is stopped and listing and inspection succeed, and runs afterwards unless the start failed; otherwise one container `/project-<id>` is created and then started, and it runs with its published port exactly when the start did not fail; there is at most one create |
| Containers.HandleContainerCreate | src/controllers/containers/handleContainerCreate.ts:19-85 | the guard set is the same after the call whatever happens; a call for a project in progress makes no Docker call and changes nothing; otherwise it does the work |
| Containers.RacingCreatesCollapse | src/controllers/containers/handleContainerCreate.ts:23-28 | a second call while the first is suspended returns at once with no Docker call, and afterwards the project is unmarked with at most one create |
| Containers.CreateThenReuse | src/controllers/containers/handleContainerCreate.ts:30-77 | a first call that finds no container lists, creates and starts one; a later call finds it, only lists and inspects, and changes nothing |
| Containers.CreatedPortVisible | src/controllers/containers/handleContainerCreate.ts:87-98 | once the new container runs, the port lookup reports its port when no earlier running container passes the filter |
| Containers.PortLookupMatchesLongerName | src/controllers/containers/handleContainerCreate.ts:87-93 | the lookup for `project-1` returns the port of a running `project-12`, which the guard's exact match does not treat as `project-1` |
| ProjectService.FrameworkOf | src/services/project-service.ts:21-36 | exactly the four case-sensitive names select a framework, each its own |
| ProjectService.CreateProjectService | src/services/project-service.ts:11-69 | an unsupported type throws its message and leaves the new directory; a failing or empty run removes it and rethrows; success keeps it and returns the id, and happens exactly when the type is supported and the run leaves entries |
| ProjectService.DeleteProjectService | src/services/project-service.ts:93-104 | only the project's directory can go, it goes when removal works, and the call never fails |
| ProjectService.FailedCreateCleansUp | src/services/project-service.ts:17-65 | with a fresh id, a supported type's failure leaves the directories as they were; an unsupported type leaves exactly the new directory behind |
| ProjectService.CreateThenDelete | src/services/project-service.ts:93-104 | creating a project and deleting it restores the directories |
| ProjectController.Without | src/controllers/project-controller.ts:266-268 | the filtered members are exactly the old members other than the caller, and a non-member's filter changes nothing |
| ProjectController.WithoutAppend | src/controllers/project-controller.ts:266-268 | filtering distributes over concatenation, so the other members keep their order |
| ProjectController.WithoutCounts | src/controllers/project-controller.ts:266-268 | filtering removes every occurrence of the caller and keeps each other member's count |
| ProjectController.CreateProject | src/controllers/project-controller.ts:17-75 | a missing title or user id is a 400 that changes nothing; success happens exactly when every step succeeds and stores the project with the caller as owner and members exactly `[userId]`; every failure is a 500 with a non-empty message and no project stored |
| ProjectController.ErrorText | src/controllers/project-controller.ts:71-73 | the 500 body carries the thrown message, or "Failed to create project directory" when it is empty, and is never empty |
| ProjectController.JoinProject | src/controllers/project-controller.ts:215-246 | unknown project is 404, a current member is 400, and neither changes anything; success happens exactly for a known project, a non-member and a working save, appending the caller once and touching no other project |
| ProjectController.LeaveProject | src/controllers/project-controller.ts:248-276 | unknown project is 404 and the owner is 400, with nothing changed; success happens exactly for a known project, a non-owner and a working save, and then every occurrence of the caller leaves the members, the owner stays, and no other project changes |
| ProjectController.DeleteProject | src/controllers/project-controller.ts:153-194 | missing ids give 400; a missing project and a non-owner both give the same 404; a storage failure is a 500; only the owner's successful call removes the project and at most its directory |
| ProjectController.DeleteHidesExistence | src/controllers/project-controller.ts:165-169 | a non-owner's reply is identical to the reply for a project that does not exist |
| ProjectController.JoinThenLeave | src/controllers/project-controller.ts:215-276 | joining then leaving, as a non-owner who was not a member, restores the database |
| ProjectAccess.CheckProjectAccess | src/middlewares/projectAccess.ts:5-35 | the request proceeds exactly when the project exists and the caller is its owner or a member; a missing project is 404, an outsider 403 "Access denied", a failed lookup 500 |
| ProjectAccess.CreatorHasAccess | src/middlewares/projectAccess.ts:19-29 | right after creation the creator is admitted and anyone else is refused with 403 |
| ProjectAccess.OwnerAlwaysAdmitted | src/middlewares/projectAccess.ts:19-29 | the owner is admitted even when absent from the members |
| ProjectAccess.JoinGrantsLeaveRevokes | src/middlewares/projectAccess.ts:19-29 | a successful join admits the caller and a successful leave refuses them |
| UserModel.Normalize | src/models/User.ts:11-36 | the setters trim the username, lower-case the email, leave the password alone and default a missing avatar to the empty string; present fields stay present |
| UserModel.UsernameError | src/models/User.ts:12-19 | a username passes exactly when present with 3 to 20 UTF-16 units; a missing one is "Username is required", a shorter one "Username must be at least 3 characters", a longer one "Username cannot exceed 20 characters" |
| UserModel.EmailError | src/models/User.ts:20-26 | an email passes exactly when non-empty and accepted by the address pattern; a missing one is "Email is required", a rejected one "Please enter a valid email" |
| UserModel.PasswordError | src/models/User.ts:27-32 | a password passes exactly when present with at least 6 units; a missing one is "Password is required", a shorter one "Password must be at least 6 characters" |
| UserModel.FirstError | src/models/User.ts:11-36 | the reported error is the username's if any, else the email's, else the password's, and there is none exactly when all three pass |
| UserModel.PassedValidation | src/models/User.ts:11-36 | a document passing validation yields a valid user: trimmed 3-20 unit name, non-empty lower-case matching email, password of at least 6 |
| UserModel.MakeUser | src/models/User.ts:11-41 | construction fails exactly when validation does, with the first message; success yields a valid user with trimmed name, lower-cased email and the empty avatar default |
| UserModel.FindByEmail | src/models/User.ts:52 | the result is the first user in natural order with that email, and there is none exactly when no user has it |
| UserModel.FindByCredentials | src/models/User.ts:51-64 | success happens exactly when the lower-cased email finds a user whose hash matches; an unknown email and a wrong password raise the same error |
| UserModel.ValidationOrder | src/models/User.ts:11-36 | username problems are reported before email and password problems, and email problems before password problems |
| UserModel.PaddedShortNameRejected | src/models/User.ts:12-19 | the length limits apply after trimming: "  ab  " is too short |
| Text.LowerTrimLower | src/controllers/auth-controller.ts:100 | lower-casing, trimming and lower-casing again, as the controller and then the setter do, equals lower-casing then trimming |
| AuthController.FindEmailOrName | src/controllers/auth-controller.ts:72-74 | the lookup returns the first user in natural order holding the email or the username, and none exactly when no user holds either |
| AuthController.MatchError | src/controllers/auth-controller.ts:77-91 | on the found user, the email message exactly when its email equals the lower-cased email sent, the name message exactly when only its username equals the name as sent, and none otherwise |
| AuthController.ExistingUserError | src/controllers/auth-controller.ts:72-91 | an email message implies some user has the lower-cased email and a username message implies some user has the name as sent; for a trimmed name, passing means no user has that email or that name |
| AuthController.BuildUser | src/controllers/auth-controller.ts:98-105 | construction fails exactly when the schema validation of the trimmed, lower-cased document fails, with its first message; success stores the trimmed name, the lower-cased trimmed email, the hash and the id, and is a valid user |
| AuthController.SaveUser | src/controllers/auth-controller.ts:105-126 | a name or email clash is a 500 with nothing stored; without a signing secret the user is stored and the reply is 500; success is 201 with the public user and the user appended |
| AuthController.RegisterChecked | src/controllers/auth-controller.ts:71-146 | a duplicate message and a validation message each give their own 400 with nothing stored; every 500 is "Server error during registration" with no user; the reply is 201 exactly when the duplicate check passes, validation passes, no stored user clashes and a secret is set, and then one valid user with a fresh name and email is appended and returned without its password |
| AuthController.Register | src/controllers/auth-controller.ts:31-146 | missing fields, unequal passwords and a password under 6 units each get their own 400, in that order and exactly in those cases; otherwise the outcome is that of the later checks; every 500 is "Server error during registration" with no user |
| AuthController.FreshRegistrationSucceeds | src/controllers/auth-controller.ts:47-126 | a request with all fields, matching passwords of at least 6 units, a valid 3-20 unit trimmed name and a valid email, whose name and email no stored user holds, is registered with 201 |
| AuthController.Login | src/controllers/auth-controller.ts:151-217 | missing fields are 400; an unknown email and a wrong password both get the same 401; a matching login without a signing secret, and only that, is 500 "Server error during login" with no user; a success names a user with the lower-cased email and a matching hash and returns it without its password |
| AuthController.LoginAgreesWithFindByCredentials | src/controllers/auth-controller.ts:165-187 | login and the schema's credential lookup accept the same requests and return the same user |
| AuthController.RegisteredAppends | src/controllers/auth-controller.ts:98-126 | a successful registration leaves the old users followed by the new one, whose email no earlier user holds |
| AuthController.RegisterThenLogin | src/controllers/auth-controller.ts:98-187 | right after registering, the same email and password log in and return the same public user, provided the email is free of surrounding white space |
| AuthController.PaddedEmailCannotLogIn | src/controllers/auth-controller.ts:100-165 | an email sent with surrounding white space is stored trimmed, so logging in with the same input gets 401 when no earlier user holds that padded email |
| AuthController.EmailMessageFirst | src/controllers/auth-controller.ts:72-90 | when the found user holds the email, the email message wins even if it also holds the name |
| AuthController.NaturalOrderDecides | src/controllers/auth-controller.ts:72-90 | when an earlier user holds the name and a later one the email, the name message is given |
| AuthController.AnyMatchRefuses | src/controllers/auth-controller.ts:72-91 | for a name sent without surrounding white space, whichever user matching the lookup's filters is returned, the request is refused with a duplicate message; only which message depends on the user found |
| AuthController.PaddedNameSkipsDuplicateCheck | src/controllers/auth-controller.ts:72-144 | a padded copy of an existing name passes the duplicate check; validation or the unique index then refuses it and nothing is stored |

## Left out

- The file-system handlers `writeFile`, `createFile`, `readFile`, `deleteFile`, `createFolder` and `deleteFolder` (src/socket-handlers/editorHandler.ts:165-236) are left out. They are direct file I/O with no shared state.
- The project sync to storage at the end of the editor disconnect (src/socket-handlers/editorHandler.ts:323-325) is left out. It is storage I/O.
- Socket.IO delivery, room joining and leaving, and cookie parsing are left out. Broadcasts are recorded as (room, event) pairs.
- JWT signing and verification, bcrypt hashing and comparison, the email regular expression, uuid generation and the avatar URL are library calls. They appear as parameters.
- Real concurrency is not modelled. Each handler is one atomic step. The check-then-act gaps in `transferLock` (read at line 260, write at line 278) and `leaveFileRoom` (read at line 147, delete at line 160) are noted in the code, not explored.
- Redis `KEYS` glob metacharacters are not modelled. A project id or path holding `*`, `?` or `[` would change the match; the model uses plain prefix matching.
- Wall-clock expiry is not modelled. The clock is logical and advances only through `Store.Advance`.
- `getProjectTree`, `getUserProjects` and `getProjectById` are left out. They are reads with no rule beyond lookup.
- The project service's `getProjectTree` is left out. It is directory listing.
- `getCurrentUser`, `logoutUser` and `listContainers` are left out. They are lookups, cookie clearing and logging.
- The Docker container spec, image, port binding and readiness are left out. A new container's published port is a parameter.
- Logging is left out throughout.
- LockJson.ReadHolder: accepts exactly `{"userId":<JSON string>}` and treats any other text as a syntax error. A lone escaped surrogate half (`\ud83d` not followed by a low half) is rejected, because a character of the model is a Unicode scalar value; `JSON.parse` accepts it as an unpaired UTF-16 unit. No writer in the program produces one: `JSON.stringify` writes characters outside the basic plane raw. `JSON.parse` also accepts white space, other key orders, extra keys and non-string values, and other JSON texts such as `42`, `true`, `null` or a quoted string. The socket handlers never write those, but the lock helper API writes raw ids, and an id such as `42` is JSON text. For such a value `transferLock` would answer "You don't hold the lock" (for `null` it would throw and answer nothing) where the model answers "Lock data corrupted".
- EditorDisconnect.SweepLocks: a raw id that is JSON text other than `null`, such as `42` or `true`, parses without throwing in the source, its `userId` is undefined, and the sweep moves on to the next key. The model treats every value its reader rejects as throwing, so for such a value it ends the sweep where the source continues.
- EditorHandler.LockFile: on contention, when the held value is JSON text other than `null` and not a lock object (for example a raw id `42`), the source tells the caller `fileLocked` with an undefined holder; the model sends nothing.
- Text.Lower: lower-cases ASCII letters only. `toLowerCase` also maps other scripts.
- EditorHandler.JoinProjectRoom: profile and socket lookups are partial maps that never fail. A throwing lookup, which the source only logs, ending the handler early, is not modelled.
- EditorHandler.JoinFileRoom: same as above for its lookups. The lock is read before the presence update; as one step, this makes no difference.
- ProjectController.CreateProject: the archive, upload and record-creation steps are one outcome parameter. Removing the local zip is not modelled, and neither is the directory-existence re-check, which cannot fail after a successful scaffold.
- ProjectController.DeleteProject: a failure of the record deletion, the 500 "Internal server error" of its catch, is not modelled.
- ProjectController.JoinProject: a failing save is a parameter and a failing lookup is not modelled. LeaveProject does the same.
- ProjectService.CreateProjectService: a failure of the clean-up removal itself is taken not to happen; the source only logs it. A failing `mkdir` of the project directory (src/services/project-service.ts:17), which throws before the framework check, is not modelled either.
- ProjectService: the generator command read from the environment for each framework is not modelled; its run is the `exec` outcome parameter.
- UserModel.FirstError: Mongoose reports the errors of all failing paths and the controller takes the first. The model takes that to be the first failing path in schema order.
- AuthController.Register: a failing database lookup in the duplicate check, and a failing hash, each the 500 "Server error during registration" of the catch, are not modelled. A request body field that is not a string, which makes `toLowerCase` throw and gives a 500, is not modelled. Query filters are taken to receive the schema setters, so the username filter is trimmed and the email filter lower-cased.
- AuthController.FindEmailOrName: the `$or` lookup has no sort, and both fields carry unique indexes, so MongoDB may answer it through an index plan and return any matching user. The model assumes the first match in natural order; NaturalOrderDecides holds only under that assumption, while AnyMatchRefuses holds for every choice.
- AuthController.Login: a failing database lookup, the 500 of its catch, is not modelled. A missing signing secret is. Request fields are taken to be strings: a truthy `email` or `password` of another type makes `toLowerCase` or the hash comparison throw, which the catch answers with 500; the model has no such input.
- AuthController.PublicUser: the reply's user also carries the schema's `createdAt` and `updatedAt` timestamps and the version key `__v`; the model has no clock for documents and leaves them out.

=== FILE: auth_controller.dfy ===
/** Registration and login.

    The user collection is a sequence in natural order (the order `findOne`
    returns the first match in). Hashing, the avatar, the fresh id and
    whether a signing secret is configured are parameters; `matches` stands
    for the hash comparison. A response carries its status, its message and
    the user it reports, which has no password field. */
module AuthController {
  import opened Wrappers
  import opened Text
  import opened UserModel

  /** A user as responses show it: the stored record without the password. */
  datatype PublicUser = PublicUser(id: string, username: string, email: string, avatarUrl: string)

  function Public(u: UserRecord): PublicUser {
    PublicUser(u.id, u.username, u.email, u.avatarUrl)
  }

  datatype AuthReply = AuthReply(status: nat, message: string, user: Option<PublicUser>)

  /** The registration body: `name`, `email`, `password`, `confirmPassword`. */
  datatype RegisterInput = RegisterInput(name: Option<string>, email: Option<string>, password: Option<string>,
                                         confirmPassword: Option<string>)

  datatype Registered = Registered(reply: AuthReply, users: seq<UserRecord>)

  predicate AllPresent(input: RegisterInput) {
    Truthy(input.name) && Truthy(input.email) && Truthy(input.password) && Truthy(input.confirmPassword)
  }

  /** The first user, in natural order, with that email or that username. */
  function FindEmailOrName(users: seq<UserRecord>, email: string, username: string): (r: Option<nat>)
    ensures r.Some? ==>
      && r.value < |users| && (users[r.value].email == email || users[r.value].username == username)
      && (forall j :: 0 <= j < r.value ==> users[j].email != email && users[j].username != username)
    ensures r.None? <==> forall j :: 0 <= j < |users| ==> users[j].email != email && users[j].username != username
    decreases |users|
  {
    if |users| == 0 then None
    else if users[0].email == email || users[0].username == username then Some(0)
    else
      assert forall j :: 1 <= j < |users| ==> users[j] == users[1..][j - 1];
      match FindEmailOrName(users[1..], email, username)
      case None => None
      case Some(i) => Some(i + 1)
  }

  /** The comparisons on the user the lookup found: the email as sent,
      lower-cased, then the name as sent. */
  function MatchError(found: UserRecord, email: string, name: string): (r: Option<string>)
    ensures r == Some("User with this email already exists") <==> found.email == Lower(email)
    ensures r == Some("Username is already taken") <==> found.email != Lower(email) && found.username == name
    ensures r.None? <==> found.email != Lower(email) && found.username != name
  {
    if found.email == Lower(email) then Some("User with this email already exists")
    else if found.username == name then Some("Username is already taken")
    else None
  }

  /** The duplicate check before hashing. The lookup's filters get the
      schema setters (the username filter is trimmed), but the found user's
      username is compared with the name as sent. A found user that matches
      neither comparison lets the request through. */
  function ExistingUserError(users: seq<UserRecord>, email: string, name: string): (r: Option<string>)
    ensures r == Some("User with this email already exists") ==> exists i :: 0 <= i < |users| && users[i].email == Lower(email)
    ensures r == Some("Username is already taken") ==> exists i :: 0 <= i < |users| && users[i].username == name
    ensures r.None? || r == Some("User with this email already exists") || r == Some("Username is already taken")
    ensures r.None? && Trim(name) == name ==>
      forall i :: 0 <= i < |users| ==> users[i].email != Lower(email) && users[i].username != name
  {
    match FindEmailOrName(users, Lower(email), Trim(name))
    case None => None
    case Some(i) => MatchError(users[i], email, name)
  }

  /** Whichever user matching the lookup's filters is returned, a name sent
      without surrounding white space is refused with one of the two
      duplicate messages; only which message depends on the user found. */
  lemma AnyMatchRefuses(found: UserRecord, email: string, name: string)
    requires Trim(name) == name
    requires found.email == Lower(email) || found.username == Trim(name)
    ensures MatchError(found, email, name).Some?
  {
  }

  /** The unique indexes on username and email reject the new document. */
  predicate Collides(users: seq<UserRecord>, u: UserRecord) {
    exists i :: 0 <= i < |users| && (users[i].username == u.username || users[i].email == u.email)
  }

  /** The document `registerUser` builds: trimmed name, lower-cased and trimmed email. */
  function NewUserInput(input: RegisterInput, hashed: string, avatarUrl: string): UserInput
    requires AllPresent(input)
  {
    UserInput(Some(Trim(input.name.value)), Some(Trim(Lower(input.email.value))), Some(hashed), Some(avatarUrl))
  }

  /** Constructing and validating the new user from the request. */
  function BuildUser(input: RegisterInput, newId: string, hashed: string, avatarUrl: string,
                     isEmail: string -> bool): (r: Result<UserRecord>)
    requires AllPresent(input)
    ensures r.Err? <==> FirstError(Normalize(NewUserInput(input, hashed, avatarUrl)), isEmail).Some?
    ensures r.Err? ==> r.error == FirstError(Normalize(NewUserInput(input, hashed, avatarUrl)), isEmail).value
    ensures r.Err? ==> r.error in ValidatorMessages
    ensures r.Ok? ==>
      && r.value.id == newId && r.value.password == hashed
      && r.value.username == Trim(input.name.value)
      && r.value.email == Trim(Lower(input.email.value))
      && ValidUser(r.value, isEmail)
  {
    var made := MakeUser(NewUserInput(input, hashed, avatarUrl), newId, isEmail);
    match made
    case Err(message) => Err(message)
    case Ok(u) =>
      TrimIdempotent(input.name.value);
      LowerTrimLower(input.email.value);
      Ok(u)
  }

  /** Saving a built user: the unique indexes refuse a clash; without a
      signing secret the token step fails after the save. */
  function SaveUser(users: seq<UserRecord>, u: UserRecord, secretSet: bool): (r: Registered)
    ensures r.reply.status in {201, 500}
    ensures r.reply.status == 500 ==> r.reply == AuthReply(500, "Server error during registration", None)
    ensures r.users == users || (r.users == users + [u] && !Collides(users, u))
    ensures !Collides(users, u) ==> r.users == users + [u]
    ensures r.reply.status == 201 <==> !Collides(users, u) && secretSet
    ensures r.reply.status == 201 ==>
      r == Registered(AuthReply(201, "User registered successfully", Some(Public(u))), users + [u])
  {
    if Collides(users, u) then Registered(AuthReply(500, "Server error during registration", None), users)
    else if !secretSet then Registered(AuthReply(500, "Server error during registration", None), users + [u])
    else Registered(AuthReply(201, "User registered successfully", Some(Public(u))), users + [u])
  }

  /** The messages of the three checks that precede the lookup. */
  const EarlyMessages: set<string> :=
    {"Please provide all required fields", "Passwords do not match", "Password must be at least 6 characters long"}

  /** No later step reuses a message of the early checks. */
  lemma LaterMessagesDiffer()
    ensures forall m :: m in ValidatorMessages ==> m !in EarlyMessages
    ensures "User with this email already exists" !in EarlyMessages
    ensures "Username is already taken" !in EarlyMessages
    ensures "Server error during registration" !in EarlyMessages
    ensures "User registered successfully" !in EarlyMessages
  {
  }

  /** Registration once the early checks have passed: the duplicate check,
      construction and validation, and the save. */
  function RegisterChecked(users: seq<UserRecord>, input: RegisterInput, newId: string, hashed: string,
                           avatarUrl: string, isEmail: string -> bool, secretSet: bool): (r: Registered)
    requires AllPresent(input)
    ensures r.reply.message !in EarlyMessages
    ensures r.reply.status in {201, 400, 500}
    ensures r.reply.status != 201 ==> r.reply.user.None?
    ensures r.reply.status == 500 ==> r.reply == AuthReply(500, "Server error during registration", None)
    ensures r.reply.status == 400 ==> r.users == users
    ensures r.users != users ==> r.reply.status == 201 || (r.reply.status == 500 && !secretSet)
    ensures ExistingUserError(users, input.email.value, input.name.value).Some? ==>
      r == Registered(AuthReply(400, ExistingUserError(users, input.email.value, input.name.value).value, None), users)
    ensures ExistingUserError(users, input.email.value, input.name.value).None?
            && BuildUser(input, newId, hashed, avatarUrl, isEmail).Err? ==>
      r == Registered(AuthReply(400, BuildUser(input, newId, hashed, avatarUrl, isEmail).error, None), users)
    ensures r.reply.status == 201 <==>
      && ExistingUserError(users, input.email.value, input.name.value).None?
      && BuildUser(input, newId, hashed, avatarUrl, isEmail).Ok?
      && !Collides(users, BuildUser(input, newId, hashed, avatarUrl, isEmail).value)
      && secretSet
    ensures r.reply.status == 201 ==>
      && r.reply.message == "User registered successfully"
      && |r.users| == |users| + 1 && r.users[..|users|] == users
      && var u := r.users[|users|];
         && u.id == newId && u.password == hashed
         && u.username == Trim(input.name.value)
         && u.email == Trim(Lower(input.email.value))
         && ValidUser(u, isEmail)
         && (forall i :: 0 <= i < |users| ==> users[i].username != u.username && users[i].email != u.email)
         && r.reply.user == Some(Public(u))
  {
    LaterMessagesDiffer();
    match ExistingUserError(users, input.email.value, input.name.value)
    case Some(message) => Registered(AuthReply(400, message, None), users)
    case None =>
      match BuildUser(input, newId, hashed, avatarUrl, isEmail)
      case Err(message) => Registered(AuthReply(400, message, None), users)
      case Ok(u) =>
        var saved := SaveUser(users, u, secretSet);
        assert saved.reply.status == 201 ==> (users + [u])[..|users|] == users && (users + [u])[|users|] == u;
        saved
  }

  /** `registerUser`: required fields, matching passwords, password length,
      the duplicate check, then construction, validation and the unique
      indexes. A missing signing secret fails after the user is saved. */
  function Register(users: seq<UserRecord>, input: RegisterInput, newId: string, hashed: string, avatarUrl: string,
                    isEmail: string -> bool, secretSet: bool): (r: Registered)
    ensures !AllPresent(input) <==> r.reply == AuthReply(400, "Please provide all required fields", None)
    ensures AllPresent(input) && input.password.value != input.confirmPassword.value
      <==> r.reply == AuthReply(400, "Passwords do not match", None)
    ensures AllPresent(input) && input.password.value == input.confirmPassword.value
            && Utf16Length(input.password.value) < 6
      <==> r.reply == AuthReply(400, "Password must be at least 6 characters long", None)
    ensures AllPresent(input) && input.password.value == input.confirmPassword.value
            && Utf16Length(input.password.value) >= 6
      ==> r == RegisterChecked(users, input, newId, hashed, avatarUrl, isEmail, secretSet)
    ensures r.reply.status in {201, 400, 500}
    ensures r.reply.status == 500 ==> r.reply == AuthReply(500, "Server error during registration", None)
  {
    if !AllPresent(input) then Registered(AuthReply(400, "Please provide all required fields", None), users)
    else if input.password.value != input.confirmPassword.value then
      Registered(AuthReply(400, "Passwords do not match", None), users)
    else if Utf16Length(input.password.value) < 6 then
      Registered(AuthReply(400, "Password must be at least 6 characters long", None), users)
    else RegisterChecked(users, input, newId, hashed, avatarUrl, isEmail, secretSet)
  }

  /** A well-formed request whose name and email no stored user holds is
      registered: the reply is 201. */
  lemma FreshRegistrationSucceeds(users: seq<UserRecord>, input: RegisterInput, newId: string, hashed: string,
                                  avatarUrl: string, isEmail: string -> bool)
    requires AllPresent(input) && input.password == input.confirmPassword
    requires Utf16Length(input.password.value) >= 6
    requires 3 <= Utf16Length(Trim(input.name.value)) <= 20
    requires Trim(Lower(input.email.value)) != "" && isEmail(Trim(Lower(input.email.value)))
    requires Utf16Length(hashed) >= 6
    requires forall i :: 0 <= i < |users| ==>
      && users[i].username != Trim(input.name.value)
      && users[i].email != Lower(input.email.value)
      && users[i].email != Trim(Lower(input.email.value))
    ensures Register(users, input, newId, hashed, avatarUrl, isEmail, true).reply.status == 201
  {
    FreshPassesDuplicateCheck(users, input.email.value, input.name.value);
    FreshBuilds(input, newId, hashed, avatarUrl, isEmail);
    var b := BuildUser(input, newId, hashed, avatarUrl, isEmail);
    FreshDoesNotCollide(users, b.value, Trim(input.name.value), Trim(Lower(input.email.value)));
    var r := Register(users, input, newId, hashed, avatarUrl, isEmail, true);
    assert r == RegisterChecked(users, input, newId, hashed, avatarUrl, isEmail, true);
  }

  lemma FreshDoesNotCollide(users: seq<UserRecord>, u: UserRecord, name: string, email: string)
    requires u.username == name && u.email == email
    requires forall i :: 0 <= i < |users| ==> users[i].username != name && users[i].email != email
    ensures !Collides(users, u)
  {
  }

  lemma FreshPassesDuplicateCheck(users: seq<UserRecord>, email: string, name: string)
    requires forall i :: 0 <= i < |users| ==> users[i].username != Trim(name) && users[i].email != Lower(email)
    ensures ExistingUserError(users, email, name).None?
  {
    assert FindEmailOrName(users, Lower(email), Trim(name)).None?;
  }

  lemma FreshBuilds(input: RegisterInput, newId: string, hashed: string, avatarUrl: string, isEmail: string -> bool)
    requires AllPresent(input)
    requires 3 <= Utf16Length(Trim(input.name.value)) <= 20
    requires Trim(Lower(input.email.value)) != "" && isEmail(Trim(Lower(input.email.value)))
    requires Utf16Length(hashed) >= 6
    ensures BuildUser(input, newId, hashed, avatarUrl, isEmail).Ok?
  {
    TrimIdempotent(input.name.value);
    LowerTrimLower(input.email.value);
    var n := Normalize(NewUserInput(input, hashed, avatarUrl));
    assert n.username == Some(Trim(input.name.value));
    assert n.email == Some(Trim(Lower(input.email.value)));
    assert UsernameError(n.username).None? && EmailError(n.email, isEmail).None? && PasswordError(n.password).None?;
  }

  /** `loginUser`: both fields required; an unknown email and a wrong
      password get the same 401; a missing signing secret is a 500. */
  function Login(users: seq<UserRecord>, email: Option<string>, password: Option<string>,
                 matches: (string, string) -> bool, secretSet: bool): (r: AuthReply)
    ensures !Truthy(email) || !Truthy(password) <==> r == AuthReply(400, "Please provide email and password", None)
    ensures r.status in {200, 400, 401, 500}
    ensures r.status == 401 ==> r == AuthReply(401, "Invalid credentials", None)
    ensures r.status == 401 <==>
      Truthy(email) && Truthy(password) &&
      (FindByEmail(users, Lower(email.value)).None?
       || !matches(password.value, users[FindByEmail(users, Lower(email.value)).value].password))
    ensures r.status == 500 <==>
      Truthy(email) && Truthy(password) && FindByEmail(users, Lower(email.value)).Some? &&
      matches(password.value, users[FindByEmail(users, Lower(email.value)).value].password) && !secretSet
    ensures r.status == 500 ==> r == AuthReply(500, "Server error during login", None)
    ensures r.status == 200 ==>
      && r.message == "Login successful" && secretSet
      && exists i :: 0 <= i < |users| && users[i].email == Lower(email.value)
                     && matches(password.value, users[i].password) && r.user == Some(Public(users[i]))
  {
    if !Truthy(email) || !Truthy(password) then AuthReply(400, "Please provide email and password", None)
    else
      match FindByEmail(users, Lower(email.value))
      case None => AuthReply(401, "Invalid credentials", None)
      case Some(i) =>
        if !matches(password.value, users[i].password) then AuthReply(401, "Invalid credentials", None)
        else if !secretSet then AuthReply(500, "Server error during login", None)
        else AuthReply(200, "Login successful", Some(Public(users[i])))
  }

  /** Login and the model's credential lookup accept the same requests and the same user. */
  lemma LoginAgreesWithFindByCredentials(users: seq<UserRecord>, email: string, password: string,
                                         matches: (string, string) -> bool)
    requires email != "" && password != ""
    ensures var r := Login(users, Some(email), Some(password), matches, true);
      var c := FindByCredentials(users, email, password, matches);
      && (r.status == 200 <==> c.Ok?)
      && (c.Ok? ==> r.user == Some(Public(c.value)))
      && (c.Err? ==> r == AuthReply(401, "Invalid credentials", None))
  {
  }

  /** The lookup finds a user appended after users that do not hold the email. */
  lemma {:induction false} FindByEmailAppended(users: seq<UserRecord>, u: UserRecord, email: string)
    requires forall i :: 0 <= i < |users| ==> users[i].email != email
    requires u.email == email
    ensures FindByEmail(users + [u], email) == Some(|users|)
  {
    var all := users + [u];
    assert all[|users|] == u;
    assert forall j :: 0 <= j < |users| ==> all[j] == users[j];
  }

  /** The lookup misses when neither the old users nor the appended one hold the email. */
  lemma {:induction false} FindByEmailMissing(users: seq<UserRecord>, u: UserRecord, email: string)
    requires forall i :: 0 <= i < |users| ==> users[i].email != email
    requires u.email != email
    ensures FindByEmail(users + [u], email).None?
  {
    var all := users + [u];
    assert forall j :: 0 <= j < |all| ==> all[j] == if j < |users| then users[j] else u;
  }

  /** What a successful registration leaves: the old users, then the new one. */
  lemma RegisteredAppends(users: seq<UserRecord>, input: RegisterInput, newId: string, hashed: string,
                          avatarUrl: string, isEmail: string -> bool)
    ensures var r := Register(users, input, newId, hashed, avatarUrl, isEmail, true);
      r.reply.status == 201 ==>
        && AllPresent(input)
        && r.users == users + [r.users[|users|]]
        && r.users[|users|].email == Trim(Lower(input.email.value))
        && (forall i :: 0 <= i < |users| ==> users[i].email != r.users[|users|].email)
        && r.reply.user == Some(Public(r.users[|users|]))
  {
    var r := Register(users, input, newId, hashed, avatarUrl, isEmail, true);
    if r.reply.status == 201 {
      assert AllPresent(input) && input.password.value == input.confirmPassword.value;
      assert Utf16Length(input.password.value) >= 6;
      assert r == RegisterChecked(users, input, newId, hashed, avatarUrl, isEmail, true);
      assert r.users == r.users[..|users|] + [r.users[|users|]];
    }
  }

  /** A login whose email the lookup finds, with a matching password, succeeds. */
  lemma LoginFinds(users: seq<UserRecord>, i: nat, email: string, password: string, matches: (string, string) -> bool)
    requires email != "" && password != ""
    requires FindByEmail(users, Lower(email)) == Some(i) && matches(password, users[i].password)
    ensures Login(users, Some(email), Some(password), matches, true) == AuthReply(200, "Login successful", Some(Public(users[i])))
  {
  }

  /** A login whose email the lookup misses is refused. */
  lemma LoginMisses(users: seq<UserRecord>, email: string, password: string, matches: (string, string) -> bool)
    requires email != "" && password != ""
    requires FindByEmail(users, Lower(email)).None?
    ensures Login(users, Some(email), Some(password), matches, true) == AuthReply(401, "Invalid credentials", None)
  {
  }

  /** A user who has just registered can log in with the same email and
      password, and sees the same public record, provided the email has no
      surrounding white space once lower-cased. */
  lemma RegisterThenLogin(users: seq<UserRecord>, input: RegisterInput, newId: string, hashed: string,
                          avatarUrl: string, isEmail: string -> bool, matches: (string, string) -> bool)
    requires input.password.Some? && matches(input.password.value, hashed)
    requires input.email.Some? && Trim(Lower(input.email.value)) == Lower(input.email.value)
    ensures var r := Register(users, input, newId, hashed, avatarUrl, isEmail, true);
      r.reply.status == 201 ==>
        Login(r.users, input.email, input.password, matches, true) == AuthReply(200, "Login successful", r.reply.user)
  {
    var r := Register(users, input, newId, hashed, avatarUrl, isEmail, true);
    RegisteredAppends(users, input, newId, hashed, avatarUrl, isEmail);
    if r.reply.status == 201 {
      var u := r.users[|users|];
      assert u.password == hashed;
      FindByEmailAppended(users, u, Lower(input.email.value));
      LoginFinds(r.users, |users|, input.email.value, input.password.value, matches);
    }
  }

  /** An email sent with surrounding white space is stored trimmed, but
      login looks up the lower-cased email untrimmed, so logging in with
      exactly the registration input fails. */
  lemma PaddedEmailCannotLogIn(users: seq<UserRecord>, input: RegisterInput, newId: string, hashed: string,
                               avatarUrl: string, isEmail: string -> bool, matches: (string, string) -> bool)
    requires input.email.Some? && Trim(Lower(input.email.value)) != Lower(input.email.value)
    requires forall i :: 0 <= i < |users| ==> users[i].email != Lower(input.email.value)
    ensures var r := Register(users, input, newId, hashed, avatarUrl, isEmail, true);
      r.reply.status == 201 ==>
        Login(r.users, input.email, input.password, matches, true) == AuthReply(401, "Invalid credentials", None)
  {
    var r := Register(users, input, newId, hashed, avatarUrl, isEmail, true);
    RegisteredAppends(users, input, newId, hashed, avatarUrl, isEmail);
    if r.reply.status == 201 {
      FindByEmailMissing(users, r.users[|users|], Lower(input.email.value));
      LoginMisses(r.users, input.email.value, input.password.value, matches);
    }
  }

  /** When the first user the lookup finds holds the email, the email message
      wins even if that user also holds the username. */
  lemma EmailMessageFirst(users: seq<UserRecord>, input: RegisterInput, newId: string, hashed: string,
                          avatarUrl: string, isEmail: string -> bool, secretSet: bool)
    requires AllPresent(input) && input.password == input.confirmPassword
    requires Utf16Length(input.password.value) >= 6
    requires |users| > 0 && users[0].email == Lower(input.email.value)
    ensures Register(users, input, newId, hashed, avatarUrl, isEmail, secretSet).reply
         == AuthReply(400, "User with this email already exists", None)
  {
    assert ExistingUserError(users, input.email.value, input.name.value) == Some("User with this email already exists");
  }

  /** The lookup returns one user in natural order, so when an earlier user
      holds the (already trimmed) username and a later one the email, the
      username message is given although the email is taken too. */
  lemma NaturalOrderDecides(a: UserRecord, b: UserRecord, input: RegisterInput, newId: string, hashed: string,
                            avatarUrl: string, isEmail: string -> bool, secretSet: bool)
    requires AllPresent(input) && input.password == input.confirmPassword
    requires Utf16Length(input.password.value) >= 6
    requires Trim(input.name.value) == input.name.value
    requires a.username == input.name.value && a.email != Lower(input.email.value)
    requires b.email == Lower(input.email.value)
    ensures Register([a, b], input, newId, hashed, avatarUrl, isEmail, secretSet).reply
         == AuthReply(400, "Username is already taken", None)
  {
    assert FindEmailOrName([a, b], Lower(input.email.value), Trim(input.name.value)) == Some(0);
    assert ExistingUserError([a, b], input.email.value, input.name.value) == Some("Username is already taken");
  }

  /** A name sent with surrounding white space finds the user holding the
      trimmed name, but the untrimmed comparison fails, so the request
      passes the duplicate check; validation or the unique index then
      refuses it and nothing is stored. */
  lemma PaddedNameSkipsDuplicateCheck(a: UserRecord, input: RegisterInput, newId: string, hashed: string,
                                      avatarUrl: string, isEmail: string -> bool, secretSet: bool)
    requires AllPresent(input) && input.password == input.confirmPassword
    requires Utf16Length(input.password.value) >= 6
    requires a.username == Trim(input.name.value) && a.username != input.name.value
    requires a.email != Lower(input.email.value)
    ensures ExistingUserError([a], input.email.value, input.name.value).None?
    ensures var r := Register([a], input, newId, hashed, avatarUrl, isEmail, secretSet);
      && r.users == [a]
      && (r.reply.status == 400 ==> r.reply.message in ValidatorMessages)
      && (r.reply.status != 400 ==> r.reply == AuthReply(500, "Server error during registration", None))
  {
    assert FindEmailOrName([a], Lower(input.email.value), Trim(input.name.value)) == Some(0);
    var r := Register([a], input, newId, hashed, avatarUrl, isEmail, secretSet);
    assert r == RegisterChecked([a], input, newId, hashed, avatarUrl, isEmail, secretSet);
    match BuildUser(input, newId, hashed, avatarUrl, isEmail)
    case Err(_) =>
    case Ok(u) =>
      assert Collides([a], u);
  }
}

=== FILE: containers.dfy ===
/** The sandbox-container controller: the in-process guard against concurrent
    creation of a project's container, the existing/stopped/absent branching,
    and the port lookup used by the editor namespace.

    Docker is abstracted to its container listing: each row carries the
    container's names (Docker reports them with a leading `/`), whether it is
    running, and the public port of each port entry. A failing Docker call is
    a parameter (`fault`: the kind of call that throws); a port Docker assigns
    to a new container is a parameter too. Awaits are the only points where
    another call can run, so the guard is modelled as three steps: entering
    (the synchronous `has`/`add`), the Docker work, and the `finally` removal. */
module Containers {
  import opened Wrappers
  import opened Text
  import opened Events

  datatype Container = Container(names: seq<string>, running: bool, ports: seq<Option<nat>>)

  datatype CallKind = ListAll | Inspect | Create | Start

  /** The guard set after the call, the container listing after it, and the Docker calls made, in order. */
  datatype Outcome = Outcome(creating: set<string>, containers: seq<Container>, calls: seq<CallKind>)

  /** `project-<projectId>`: the container name of a project. */
  function ContainerName(projectId: string): string {
    "project-" + projectId
  }

  // ---------------------------------------------------------------------------
  // getContainerPort
  // ---------------------------------------------------------------------------

  /** Docker's `name` filter is an unanchored match against each of a container's names. */
  predicate NameFilterMatches(c: Container, name: string) {
    exists i | 0 <= i < |c.names| :: IsSubstring(name, c.names[i])
  }

  /** A listing without `all: true` holds running containers only, so a
      candidate must be running and pass the name filter. */
  predicate PortCandidate(c: Container, name: string) {
    c.running && NameFilterMatches(c, name)
  }

  predicate IsFirstCandidate(cs: seq<Container>, name: string, i: int) {
    0 <= i < |cs| && PortCandidate(cs[i], name) && forall j :: 0 <= j < i ==> !PortCandidate(cs[j], name)
  }

  /** The first port entry has a public port other than 0 (`PublicPort || null`). */
  predicate HasPublicPort(c: Container) {
    |c.ports| > 0 && c.ports[0].Some? && c.ports[0].value != 0
  }

  /** The index of the first candidate, or `|cs|` when there is none. */
  function FirstCandidate(cs: seq<Container>, name: string): (r: nat)
    ensures r <= |cs|
    ensures r < |cs| ==> IsFirstCandidate(cs, name, r)
    ensures r == |cs| ==> forall j :: 0 <= j < |cs| ==> !PortCandidate(cs[j], name)
    decreases |cs|
  {
    if |cs| == 0 then 0
    else if PortCandidate(cs[0], name) then 0
    else
      var r := 1 + FirstCandidate(cs[1..], name);
      assert forall j :: 1 <= j < |cs| ==> cs[j] == cs[1..][j - 1];
      r
  }

  /** `getContainerPort`: the first port's public port of the first listed
      container the filter selects; null when the listing fails, nothing
      matches, or that container has no usable first port. */
  function GetContainerPort(listing: Option<seq<Container>>, name: string): (r: PortReply)
    ensures r.Port? <==>
      listing.Some? && exists i :: IsFirstCandidate(listing.value, name, i) && HasPublicPort(listing.value[i])
    ensures r.Port? ==>
      && r.number > 0
      && (forall i :: IsFirstCandidate(listing.value, name, i) ==> listing.value[i].ports[0] == Some(r.number))
  {
    match listing
    case None => NoPort
    case Some(cs) =>
      var i := FirstCandidate(cs, name);
      if i < |cs| && HasPublicPort(cs[i]) then Port(cs[i].ports[0].value) else NoPort
  }

  // ---------------------------------------------------------------------------
  // handleContainerCreate
  // ---------------------------------------------------------------------------

  /** `c.Names.includes("/" + name)`: an exact match of one of the names. */
  predicate Named(c: Container, name: string) {
    ("/" + name) in c.names
  }

  /** `allContainers.find(...)`: the index of the first container with that exact name. */
  function FindExisting(cs: seq<Container>, name: string): (r: Option<nat>)
    ensures r.Some? ==>
      && r.value < |cs| && Named(cs[r.value], name)
      && (forall j :: 0 <= j < r.value ==> !Named(cs[j], name))
    ensures r.None? <==> forall j :: 0 <= j < |cs| ==> !Named(cs[j], name)
    decreases |cs|
  {
    if |cs| == 0 then None
    else if Named(cs[0], name) then Some(0)
    else
      assert forall j :: 1 <= j < |cs| ==> cs[j] == cs[1..][j - 1];
      match FindExisting(cs[1..], name)
      case None => None
      case Some(i) => Some(i + 1)
  }

  /** The synchronous guard at the top of the handler: it proceeds, and marks
      the project, only when no creation for it is in progress. */
  function Enter(creating: set<string>, projectId: string): (r: (bool, set<string>))
    ensures r.0 <==> projectId !in creating
    ensures r.0 ==> r.1 == creating + {projectId}
    ensures !r.0 ==> r.1 == creating
  {
    if projectId in creating then (false, creating) else (true, creating + {projectId})
  }

  /** The `finally` clause. */
  function Leave(creating: set<string>, projectId: string): (r: set<string>)
    ensures projectId !in r && r + {projectId} >= creating
    ensures r <= creating
  {
    creating - {projectId}
  }

  /** The `try` block: reuse the container named `/project-<id>` (starting it
      if stopped) or create and start one. A throwing call ends the block; the
      error is caught and only logged, and what was done before stays done. */
  function Work(cs: seq<Container>, projectId: string, fault: Option<CallKind>, published: nat): (r: (seq<Container>, seq<CallKind>))
    ensures |r.1| > 0 && r.1[0] == ListAll
    ensures fault == Some(ListAll) ==> r == (cs, [ListAll])
    ensures FindExisting(cs, ContainerName(projectId)).Some? ==>
      && Create !in r.1
      && |r.0| == |cs|
      && (forall i :: 0 <= i < |cs| ==> r.0[i].names == cs[i].names && r.0[i].ports == cs[i].ports)
      && (forall i :: 0 <= i < |cs| && i != FindExisting(cs, ContainerName(projectId)).value ==> r.0[i] == cs[i])
      && (Start in r.1 <==> fault != Some(ListAll) && fault != Some(Inspect)
                            && !cs[FindExisting(cs, ContainerName(projectId)).value].running)
      && (fault != Some(ListAll) && fault != Some(Inspect) && fault != Some(Start) ==>
            r.0[FindExisting(cs, ContainerName(projectId)).value].running)
    ensures FindExisting(cs, ContainerName(projectId)).None? && fault != Some(ListAll) ==>
      && |r.1| >= 2 && r.1[..2] == [ListAll, Create]
      && (fault != Some(Create) ==>
            && r.1 == [ListAll, Create, Start]
            && |r.0| == |cs| + 1 && r.0[..|cs|] == cs
            && Named(r.0[|cs|], ContainerName(projectId))
            && (r.0[|cs|].running <==> fault != Some(Start))
            && (fault != Some(Start) ==> r.0[|cs|].ports == [Some(published)]))
      && (fault == Some(Create) ==> r == (cs, [ListAll, Create]))
    ensures multiset(r.1)[Create] <= 1
  {
    var name := ContainerName(projectId);
    if fault == Some(ListAll) then (cs, [ListAll])
    else
      match FindExisting(cs, name)
      case Some(i) =>
        if fault == Some(Inspect) || cs[i].running then (cs, [ListAll, Inspect])
        else if fault == Some(Start) then (cs, [ListAll, Inspect, Start])
        else (cs[i := cs[i].(running := true)], [ListAll, Inspect, Start])
      case None =>
        if fault == Some(Create) then (cs, [ListAll, Create])
        else
          var started := fault != Some(Start);
          var made := Container(["/" + name], started, [if started then Some(published) else None]);
          assert Named(made, name);
          (cs + [made], [ListAll, Create, Start])
  }

  /** `handleContainerCreate`: the guard, the work, and the removal from the guard. */
  function HandleContainerCreate(creating: set<string>, cs: seq<Container>, projectId: string,
                                 fault: Option<CallKind>, published: nat): (r: Outcome)
    ensures r.creating == creating
    ensures projectId in creating ==> r == Outcome(creating, cs, [])
    ensures projectId !in creating ==> (r.containers, r.calls) == Work(cs, projectId, fault, published)
  {
    var (entered, during) := Enter(creating, projectId);
    if !entered then Outcome(creating, cs, [])
    else
      var (after, calls) := Work(cs, projectId, fault, published);
      Outcome(Leave(during, projectId), after, calls)
  }

  /** A second call for the same project while the first is suspended inside
      its Docker work returns at once: no Docker call, guard and listing as
      they were. Whatever the first call's outcome, the guard is empty of the
      project again afterwards and the first call made at most one `Create`. */
  lemma RacingCreatesCollapse(creating: set<string>, cs: seq<Container>, cs': seq<Container>, projectId: string,
                              fault: Option<CallKind>, fault': Option<CallKind>, published: nat, published': nat)
    requires projectId !in creating
    ensures var (entered, during) := Enter(creating, projectId);
      && entered
      && HandleContainerCreate(during, cs', projectId, fault', published') == Outcome(during, cs', [])
      && var (_, calls) := Work(cs, projectId, fault, published);
      Leave(during, projectId) == creating && multiset(calls)[Create] <= 1
  {
  }

  /** A call that finds no container, followed by a later call once the first
      has finished, creates exactly one container: the second call only lists
      and inspects it, and changes nothing. */
  lemma CreateThenReuse(creating: set<string>, cs: seq<Container>, projectId: string, published: nat)
    requires projectId !in creating
    requires FindExisting(cs, ContainerName(projectId)).None?
    ensures var first := HandleContainerCreate(creating, cs, projectId, None, published);
      && first.calls == [ListAll, Create, Start]
      && HandleContainerCreate(first.creating, first.containers, projectId, None, published)
         == Outcome(creating, first.containers, [ListAll, Inspect])
  {
    var first := HandleContainerCreate(creating, cs, projectId, None, published);
    var name := ContainerName(projectId);
    assert first.containers[..|cs|] == cs;
    assert forall j :: 0 <= j < |cs| ==> first.containers[j] == cs[j];
    assert FindExisting(first.containers, name) == Some(|cs|);
  }

  /** Once the new container is up, `getContainerPort` reports its port,
      provided no earlier running container passes the name filter. */
  lemma {:induction false} CreatedPortVisible(creating: set<string>, cs: seq<Container>, projectId: string, published: nat)
    requires projectId !in creating && published > 0
    requires FindExisting(cs, ContainerName(projectId)).None?
    requires forall j :: 0 <= j < |cs| ==> !PortCandidate(cs[j], ContainerName(projectId))
    ensures var first := HandleContainerCreate(creating, cs, projectId, None, published);
      GetContainerPort(Some(first.containers), ContainerName(projectId)) == Port(published)
  {
    var first := HandleContainerCreate(creating, cs, projectId, None, published);
    var name := ContainerName(projectId);
    var made := first.containers[|cs|];
    assert made == Container(["/" + name], true, [Some(published)]);
    assert ("/" + name)[1..] == name;
    assert OccursAt("/" + name, name, 1);
    assert IsSubstring(name, made.names[0]);
    assert forall j :: 0 <= j < |cs| ==> first.containers[j] == cs[j];
    assert IsFirstCandidate(first.containers, name, |cs|);
  }

  /** The guard and the port lookup disagree on names: the guard matches
      `/project-1` exactly, but the port lookup for `project-1` also selects a
      running `project-12`, since the filter is a substring match. */
  lemma PortLookupMatchesLongerName()
    ensures var cs := [Container(["/project-12"], true, [Some(8080)])];
      && FindExisting(cs, ContainerName("1")).None?
      && GetContainerPort(Some(cs), ContainerName("1")) == Port(8080)
  {
    var cs := [Container(["/project-12"], true, [Some(8080)])];
    assert ContainerName("1") == "project-1";
    assert OccursAt(cs[0].names[0], "project-1", 1);
    assert IsSubstring("project-1", cs[0].names[0]);
    assert IsFirstCandidate(cs, "project-1", 0);
  }
}

=== FILE: editor_disconnect.dfy ===
/** The editor handler's `disconnect` sweep: it scans every lock and every file
    presence set, deletes the locks naming the leaving user, and removes the
    user from every file presence set, telling each affected room.

    The `KEYS` replies are parameters: the store decides their order. A lock
    value that is not JSON makes the unguarded `JSON.parse` throw, which ends
    the handler at that key: the locks already swept stay deleted and the
    presence sweep never runs. The final project sync is storage I/O and is
    not modelled. */
module EditorDisconnect {
  import opened Wrappers
  import opened Text
  import opened Store
  import opened LockJson
  import opened Keys
  import opened Events
  import opened EditorHandler

  datatype Sweep = Sweep(store: Store, emits: seq<Emission>, aborted: bool)

  /** The visible value at `key` reads as JSON naming `me`. */
  predicate NamesHolder(st: Store, key: string, me: string) {
    Get(st, key).Some? && ReadHolder(Get(st, key).value) == Some(me)
  }

  /** The visible value at `key` is set (non-empty) but `JSON.parse` rejects it. */
  predicate Unreadable(st: Store, key: string) {
    Get(st, key).Some? && Get(st, key).value != "" && ReadHolder(Get(st, key).value).None?
  }

  /** The room and event for a key the sweep acts on, from the key's own parse. */
  function RoomOf(key: string): string {
    var (projectId, path) := ParseRoomKey(key);
    FileRoom(projectId, path)
  }

  /** The `fileUnlocked` notice for a swept lock key, sent to the room parsed from the key. */
  function UnlockNotice(key: string): Emission {
    Emission(ToRoom(RoomOf(key)), FileUnlocked(ParseRoomKey(key).1))
  }

  /** The `fileUserLeft` notice for a swept presence key. */
  function LeftNotice(key: string, me: string): Emission {
    Emission(ToRoom(RoomOf(key)), FileUserLeft(me))
  }

  /** The lock half of the sweep, over the `KEYS file-lock:*` reply. */
  function SweepLocks(st: Store, me: string, keys: seq<string>): (r: Sweep)
    ensures r.store.now == st.now && r.store.sets == st.sets
    ensures forall k :: k in r.store.strings ==> k in st.strings && r.store.strings[k] == st.strings[k]
    ensures forall e :: e in r.emits ==> e.event.FileUnlocked?
    ensures forall e :: e in r.emits ==>
      exists i :: 0 <= i < |keys| && NamesHolder(st, keys[i], me) && e == UnlockNotice(keys[i])
    ensures |r.emits| <= |keys|
    decreases |keys|
  {
    if |keys| == 0 then Sweep(st, [], false)
    else
      var k := keys[0];
      var rest := keys[1..];
      match Get(st, k)
      case None => SweepLocks(st, me, rest)
      case Some(value) =>
        if value == "" then SweepLocks(st, me, rest)
        else
          match ReadHolder(value)
          case None => Sweep(st, [], true)
          case Some(holder) =>
            if holder == me then
              var tail := SweepLocks(Del(st, k), me, rest);
              DelKeepsOthers(st, k);
              assert forall i :: 0 <= i < |rest| ==> rest[i] == keys[i + 1];
              Sweep(tail.store, [UnlockNotice(k)] + tail.emits, tail.aborted)
            else SweepLocks(st, me, rest)
  }

  /** Deleting one key leaves every other key's visible value. */
  lemma DelKeepsOthers(st: Store, k: string)
    ensures forall k' :: k' != k ==> Get(Del(st, k), k') == Get(st, k')
  {
    var st1 := Del(st, k);
    forall k' | k' != k ensures Get(st1, k') == Get(st, k') {
      assert (k' in st1.strings) == (k' in st.strings);
      if k' in st.strings {
        assert st1.strings[k'] == (st1.strings - {k})[k'] == (st.strings - {k})[k'] == st.strings[k'];
      }
    }
  }

  /** No key occurs twice in a scan, as in a `KEYS` reply. */
  predicate NoRepeats(keys: seq<string>) {
    forall i, j :: 0 <= i < j < |keys| ==> keys[i] != keys[j]
  }

  /** The scanned keys whose lock names the user, in scan order. */
  function LocksOf(st: Store, me: string, keys: seq<string>): (r: seq<string>)
    ensures forall k :: k in r <==> k in keys && NamesHolder(st, k, me)
  {
    if |keys| == 0 then []
    else (if NamesHolder(st, keys[0], me) then [keys[0]] else []) + LocksOf(st, me, keys[1..])
  }

  /** The scanned sets that hold the user, in scan order. */
  function SetsOf(st: Store, me: string, keys: seq<string>): (r: seq<string>)
    ensures forall k :: k in r <==> k in keys && me in Members(st, k)
  {
    if |keys| == 0 then []
    else (if me in Members(st, keys[0]) then [keys[0]] else []) + SetsOf(st, me, keys[1..])
  }

  /** One `fileUnlocked` notice per key. */
  function UnlockNotices(keys: seq<string>): (r: seq<Emission>)
    ensures |r| == |keys| && forall i :: 0 <= i < |keys| ==> r[i] == UnlockNotice(keys[i])
  {
    seq(|keys|, i requires 0 <= i < |keys| => UnlockNotice(keys[i]))
  }

  /** One `fileUserLeft` notice per key. */
  function LeftNotices(keys: seq<string>, me: string): (r: seq<Emission>)
    ensures |r| == |keys| && forall i :: 0 <= i < |keys| ==> r[i] == LeftNotice(keys[i], me)
  {
    seq(|keys|, i requires 0 <= i < |keys| => LeftNotice(keys[i], me))
  }

  /** Deleting a key outside the scan does not change which scanned locks name the user. */
  lemma {:induction false} LocksOfDel(st: Store, me: string, keys: seq<string>, k: string)
    requires k !in keys
    ensures LocksOf(Del(st, k), me, keys) == LocksOf(st, me, keys)
    decreases |keys|
  {
    if |keys| > 0 {
      DelKeepsOthers(st, k);
      LocksOfDel(st, me, keys[1..], k);
    }
  }

  /** Removing the user from a set outside the scan does not change which scanned sets hold it. */
  lemma {:induction false} SetsOfSRem(st: Store, me: string, keys: seq<string>, k: string)
    requires k !in keys
    ensures SetsOf(SRem(st, k, me), me, keys) == SetsOf(st, me, keys)
    decreases |keys|
  {
    if |keys| > 0 {
      SetsOfSRem(st, me, keys[1..], k);
    }
  }

  /** The lock sweep keeps every record that does not name the user. */
  lemma {:induction false} SweepLocksKeeps(st: Store, me: string, keys: seq<string>)
    ensures var r := SweepLocks(st, me, keys);
      forall k :: k in st.strings && !NamesHolder(st, k, me) ==> k in r.store.strings
    decreases |keys|
  {
    if |keys| > 0 {
      var k := keys[0];
      var rest := keys[1..];
      if NamesHolder(st, k, me) && Get(st, k).value != "" {
        DelKeepsOthers(st, k);
        SweepLocksKeeps(Del(st, k), me, rest);
      } else if !Unreadable(st, k) {
        SweepLocksKeeps(st, me, rest);
      }
    }
  }

  /** A lock sweep that did not throw leaves no scanned key naming the user. */
  lemma {:induction false} SweepLocksClears(st: Store, me: string, keys: seq<string>)
    ensures var r := SweepLocks(st, me, keys);
      !r.aborted ==> forall i :: 0 <= i < |keys| ==> !NamesHolder(r.store, keys[i], me)
    decreases |keys|
  {
    if |keys| > 0 {
      var k := keys[0];
      var rest := keys[1..];
      assert forall i :: 1 <= i < |keys| ==> keys[i] == rest[i - 1];
      var r := SweepLocks(st, me, keys);
      if NamesHolder(st, k, me) && Get(st, k).value != "" {
        SweepLocksClears(Del(st, k), me, rest);
      } else if !Unreadable(st, k) {
        SweepLocksClears(st, me, rest);
        if k in r.store.strings {
          assert r.store.strings[k] == st.strings[k];
          assert Get(r.store, k) == Get(st, k);
        }
      }
    }
  }

  /** The lock sweep throws exactly when some scanned key holds a set value
      that is not JSON. */
  lemma {:induction false} SweepLocksAborts(st: Store, me: string, keys: seq<string>)
    ensures SweepLocks(st, me, keys).aborted <==> exists i :: 0 <= i < |keys| && Unreadable(st, keys[i])
    decreases |keys|
  {
    if |keys| > 0 {
      var k := keys[0];
      var rest := keys[1..];
      assert forall i :: 1 <= i < |keys| ==> keys[i] == rest[i - 1];
      if NamesHolder(st, k, me) && Get(st, k).value != "" {
        DelKeepsOthers(st, k);
        SweepLocksAborts(Del(st, k), me, rest);
        assert forall i :: 0 <= i < |rest| ==> (Unreadable(Del(st, k), rest[i]) <==> Unreadable(st, rest[i]));
      } else if !Unreadable(st, k) {
        SweepLocksAborts(st, me, rest);
      }
    }
  }

  /** A lock sweep that did not throw sends the notice of every scanned key
      whose lock named the user. */
  lemma {:induction false} SweepLocksNotifies(st: Store, me: string, keys: seq<string>)
    ensures var r := SweepLocks(st, me, keys);
      !r.aborted ==> forall i :: 0 <= i < |keys| && NamesHolder(st, keys[i], me) ==> UnlockNotice(keys[i]) in r.emits
    decreases |keys|
  {
    if |keys| > 0 {
      var k := keys[0];
      var rest := keys[1..];
      assert forall i :: 1 <= i < |keys| ==> keys[i] == rest[i - 1];
      var r := SweepLocks(st, me, keys);
      if NamesHolder(st, k, me) && Get(st, k).value != "" {
        DelKeepsOthers(st, k);
        SweepLocksNotifies(Del(st, k), me, rest);
        assert r.emits == [UnlockNotice(k)] + SweepLocks(Del(st, k), me, rest).emits;
      } else if !Unreadable(st, k) {
        SweepLocksNotifies(st, me, rest);
      }
    }
  }

  /** Over a scan without repeats, a lock sweep that did not throw sends
      exactly one `fileUnlocked` per scanned lock naming the user, in scan
      order, and nothing else. */
  lemma {:induction false} SweepLocksExact(st: Store, me: string, keys: seq<string>)
    requires NoRepeats(keys)
    ensures var r := SweepLocks(st, me, keys);
      !r.aborted ==> r.emits == UnlockNotices(LocksOf(st, me, keys))
    decreases |keys|
  {
    if |keys| > 0 {
      var k := keys[0];
      var rest := keys[1..];
      assert NoRepeats(rest) by {
        forall i, j | 0 <= i < j < |rest| ensures rest[i] != rest[j] {
          assert rest[i] == keys[i + 1] && rest[j] == keys[j + 1];
        }
      }
      assert k !in rest by {
        forall i | 0 <= i < |rest| ensures rest[i] != k {
          assert rest[i] == keys[i + 1];
        }
      }
      if NamesHolder(st, k, me) && Get(st, k).value != "" {
        SweepLocksExact(Del(st, k), me, rest);
        LocksOfDel(st, me, rest, k);
        assert LocksOf(st, me, keys) == [k] + LocksOf(st, me, rest);
        assert UnlockNotices([k] + LocksOf(st, me, rest)) == [UnlockNotice(k)] + UnlockNotices(LocksOf(st, me, rest));
      } else if !Unreadable(st, k) {
        SweepLocksExact(st, me, rest);
        assert LocksOf(st, me, keys) == LocksOf(st, me, rest);
      }
    }
  }

  /** With no scanned key naming the user or unreadable, the sweep changes
      nothing and says nothing. */
  lemma {:induction false} SweepLocksIdle(st: Store, me: string, keys: seq<string>)
    requires forall i :: 0 <= i < |keys| ==> !NamesHolder(st, keys[i], me) && !Unreadable(st, keys[i])
    ensures SweepLocks(st, me, keys) == Sweep(st, [], false)
    decreases |keys|
  {
    if |keys| > 0 {
      assert forall i :: 1 <= i < |keys| ==> keys[i] == keys[1..][i - 1];
      SweepLocksIdle(st, me, keys[1..]);
    }
  }

  /** The presence half of the sweep, over the `KEYS file-users:*` reply. */
  function SweepPresence(st: Store, me: string, keys: seq<string>): (r: Step)
    ensures r.store.now == st.now && r.store.strings == st.strings
    ensures r.store.sets.Keys <= st.sets.Keys
    ensures forall k :: k in keys ==> Members(r.store, k) == Members(st, k) - {me}
    ensures forall k :: k !in keys ==> Members(r.store, k) == Members(st, k)
    ensures (forall i :: 0 <= i < |keys| ==> me !in Members(st, keys[i])) ==> r == Step(st, [])
    ensures forall e :: e in r.emits ==> e.event == FileUserLeft(me)
    ensures forall e :: e in r.emits ==>
      exists i :: 0 <= i < |keys| && me in Members(st, keys[i]) && e == LeftNotice(keys[i], me)
    ensures |r.emits| <= |keys|
    decreases |keys|
  {
    if |keys| == 0 then Step(st, [])
    else
      var k := keys[0];
      var rest := keys[1..];
      assert forall k' :: k' in keys <==> k' == k || k' in rest;
      if me in Members(st, k) then
        var tail := SweepPresence(SRem(st, k, me), me, rest);
        assert forall i :: 0 <= i < |rest| ==> rest[i] == keys[i + 1];
        Step(tail.store, [LeftNotice(k, me)] + tail.emits)
      else SweepPresence(st, me, rest)
  }

  /** The presence sweep sends the notice of every scanned set that held the user. */
  lemma {:induction false} SweepPresenceNotifies(st: Store, me: string, keys: seq<string>)
    ensures var r := SweepPresence(st, me, keys);
      forall i :: 0 <= i < |keys| && me in Members(st, keys[i]) ==> LeftNotice(keys[i], me) in r.emits
    decreases |keys|
  {
    if |keys| > 0 {
      var k := keys[0];
      var rest := keys[1..];
      assert forall i :: 1 <= i < |keys| ==> keys[i] == rest[i - 1];
      if me in Members(st, k) {
        var st1 := SRem(st, k, me);
        SweepPresenceNotifies(st1, me, rest);
        assert forall k' :: k' != k ==> Members(st1, k') == Members(st, k');
      } else {
        SweepPresenceNotifies(st, me, rest);
      }
    }
  }

  /** Over a scan without repeats, the presence sweep sends exactly one
      `fileUserLeft` per scanned set that held the user, in scan order. */
  lemma {:induction false} SweepPresenceExact(st: Store, me: string, keys: seq<string>)
    requires NoRepeats(keys)
    ensures SweepPresence(st, me, keys).emits == LeftNotices(SetsOf(st, me, keys), me)
    decreases |keys|
  {
    if |keys| > 0 {
      var k := keys[0];
      var rest := keys[1..];
      assert NoRepeats(rest) by {
        forall i, j | 0 <= i < j < |rest| ensures rest[i] != rest[j] {
          assert rest[i] == keys[i + 1] && rest[j] == keys[j + 1];
        }
      }
      assert k !in rest by {
        forall i | 0 <= i < |rest| ensures rest[i] != k {
          assert rest[i] == keys[i + 1];
        }
      }
      if me in Members(st, k) {
        SweepPresenceExact(SRem(st, k, me), me, rest);
        SetsOfSRem(st, me, rest, k);
        assert SetsOf(st, me, keys) == [k] + SetsOf(st, me, rest);
        assert LeftNotices([k] + SetsOf(st, me, rest), me) == [LeftNotice(k, me)] + LeftNotices(SetsOf(st, me, rest), me);
      } else {
        SweepPresenceExact(st, me, rest);
        assert SetsOf(st, me, keys) == SetsOf(st, me, rest);
      }
    }
  }

  /** `disconnect`: the lock sweep, then, unless it threw, the presence sweep. */
  function Disconnect(st: Store, me: string, lockKeys: seq<string>, userKeys: seq<string>): (r: Sweep)
    ensures r.store.now == st.now
    ensures forall k :: k in r.store.strings ==> k in st.strings && r.store.strings[k] == st.strings[k]
    ensures forall k :: Members(r.store, k) - {me} == Members(st, k) - {me}
    ensures forall k :: k !in userKeys ==> Members(r.store, k) == Members(st, k)
    ensures r.aborted ==> r.store.sets == st.sets
    ensures r.aborted ==> forall e :: e in r.emits ==> e.event.FileUnlocked?
    ensures forall e :: e in r.emits ==>
      (exists i :: 0 <= i < |lockKeys| && NamesHolder(st, lockKeys[i], me) && e == UnlockNotice(lockKeys[i])) ||
      (exists i :: 0 <= i < |userKeys| && me in Members(st, userKeys[i]) && e == LeftNotice(userKeys[i], me))
  {
    var locks := SweepLocks(st, me, lockKeys);
    if locks.aborted then locks
    else
      var users := SweepPresence(locks.store, me, userKeys);
      Sweep(users.store, locks.emits + users.emits, false)
  }

  /** After a disconnect that did not throw, no visible lock names the user and
      no file presence set holds it. Locks naming someone else and every other
      member of every set are untouched, and only `file-users:` sets change.
      The sweep throws exactly when some visible lock value is set but is not JSON. */
  lemma DisconnectClears(st: Store, me: string, lockKeys: seq<string>, userKeys: seq<string>)
    requires IsKeysReply(lockKeys, StringKeys(st, LockPrefix))
    requires IsKeysReply(userKeys, SetKeys(st, FileUsersPrefix))
    ensures var r := Disconnect(st, me, lockKeys, userKeys);
      && (r.aborted <==> exists k :: k in StringKeys(st, LockPrefix) && Unreadable(st, k))
      && (!r.aborted ==> forall k :: IsPrefix(LockPrefix, k) ==> !NamesHolder(r.store, k, me))
      && (!r.aborted ==> forall k :: IsPrefix(FileUsersPrefix, k) ==> me !in Members(r.store, k))
      && (forall k :: k in st.strings && !NamesHolder(st, k, me) ==>
            k in r.store.strings && r.store.strings[k] == st.strings[k])
      && (forall k :: Members(r.store, k) - {me} == Members(st, k) - {me})
      && (forall k :: !IsPrefix(FileUsersPrefix, k) ==> Members(r.store, k) == Members(st, k))
  {
    var locks := SweepLocks(st, me, lockKeys);
    var r := Disconnect(st, me, lockKeys, userKeys);
    SweepLocksKeeps(st, me, lockKeys);
    SweepLocksClears(st, me, lockKeys);
    SweepLocksAborts(st, me, lockKeys);
    if !locks.aborted {
      var users := SweepPresence(locks.store, me, userKeys);
      forall k | IsPrefix(LockPrefix, k) ensures !NamesHolder(r.store, k, me) {
        if Get(r.store, k).Some? {
          assert k in StringKeys(st, LockPrefix);
          var i :| 0 <= i < |lockKeys| && lockKeys[i] == k;
          assert !NamesHolder(locks.store, lockKeys[i], me);
        }
      }
      forall k | IsPrefix(FileUsersPrefix, k) ensures me !in Members(r.store, k) {
        if k in st.sets {
          assert k in SetKeys(st, FileUsersPrefix);
        }
      }
    }
    forall k ensures Members(r.store, k) - {me} == Members(st, k) - {me} {
    }
    assert (exists k :: k in StringKeys(st, LockPrefix) && Unreadable(st, k))
       <==> (exists i :: 0 <= i < |lockKeys| && Unreadable(st, lockKeys[i]));
  }

  /** A second disconnect, with fresh `KEYS` replies, changes nothing and emits nothing. */
  lemma DisconnectIdempotent(st: Store, me: string, lockKeys: seq<string>, userKeys: seq<string>,
                             lockKeys2: seq<string>, userKeys2: seq<string>)
    requires IsKeysReply(lockKeys, StringKeys(st, LockPrefix))
    requires IsKeysReply(userKeys, SetKeys(st, FileUsersPrefix))
    requires !Disconnect(st, me, lockKeys, userKeys).aborted
    requires IsKeysReply(lockKeys2, StringKeys(Disconnect(st, me, lockKeys, userKeys).store, LockPrefix))
    requires IsKeysReply(userKeys2, SetKeys(Disconnect(st, me, lockKeys, userKeys).store, FileUsersPrefix))
    ensures var s1 := Disconnect(st, me, lockKeys, userKeys).store;
      Disconnect(s1, me, lockKeys2, userKeys2) == Sweep(s1, [], false)
  {
    var s1 := Disconnect(st, me, lockKeys, userKeys).store;
    DisconnectClears(st, me, lockKeys, userKeys);
    forall i | 0 <= i < |lockKeys2| ensures !NamesHolder(s1, lockKeys2[i], me) && !Unreadable(s1, lockKeys2[i]) {
      var k := lockKeys2[i];
      assert k in StringKeys(s1, LockPrefix);
      assert k in StringKeys(st, LockPrefix);
      assert Get(s1, k) == Get(st, k);
    }
    SweepLocksIdle(s1, me, lockKeys2);
    forall i | 0 <= i < |userKeys2| ensures me !in Members(s1, userKeys2[i]) {
      assert userKeys2[i] in SetKeys(s1, FileUsersPrefix);
    }
  }

  /** Handler-written locks never make the sweep throw. */
  lemma JsonLocksNeverAbort(st: Store, me: string, lockKeys: seq<string>, userKeys: seq<string>)
    requires JsonLocks(st)
    requires IsKeysReply(lockKeys, StringKeys(st, LockPrefix))
    ensures !Disconnect(st, me, lockKeys, userKeys).aborted
  {
    forall i | 0 <= i < |lockKeys| ensures !Unreadable(st, lockKeys[i]) {
      assert lockKeys[i] in StringKeys(st, LockPrefix);
    }
    SweepLocksAborts(st, me, lockKeys);
  }

  /** A lock written by the lock helper API as a raw id that is not JSON makes
      the next disconnect throw before it clears anything, for whoever
      disconnects. An id starting with a letter is not JSON unless it is one
      of the literals `true` and `false` (`null` parses, but destructuring it
      throws as well). */
  lemma RawLockAbortsSweep(st: Store, path: string, rawId: string, me: string)
    requires rawId != "" && ('a' <= rawId[0] <= 'z' || 'A' <= rawId[0] <= 'Z')
    requires rawId != "true" && rawId != "false"
    requires st.strings == map[] && st.sets == map[]
    ensures var s1 := SetEx(st, LockKey(path), rawId, LockTtl);
      Disconnect(s1, me, [LockKey(path)], []) == Sweep(s1, [], true)
  {
    var s1 := SetEx(st, LockKey(path), rawId, LockTtl);
    assert Get(s1, LockKey(path)) == Some(rawId);
    assert !IsPrefix(HolderPrefix, rawId);
  }

  /** A lock taken by the socket handler for `<projectId>:<path>` is released on
      disconnect, but the `fileUnlocked` notice goes to room `<path>:` with an
      empty file path, because the lock key carries no project segment. */
  lemma DisconnectUnlockRoom(st: Store, s: Session, projectId: string, path: string)
    requires st.strings == map[] && st.sets == map[]
    requires ':' !in path
    ensures var s1 := LockFile(st, s, projectId, path).store;
      var r := Disconnect(s1, s.userId, [LockKey(path)], []);
      r.emits == [Emission(ToRoom(path + ":"), FileUnlocked(""))] && LockStateOf(r.store, path) == Unlocked
  {
    ParseLockKey(path);
    ReadEncodedHolder(s.userId);
    var s1 := LockFile(st, s, projectId, path).store;
    var k := LockKey(path);
    assert Get(s1, k) == Some(EncodeHolder(s.userId));
    assert RoomOf(k) == path + ":";
    var st1 := Del(s1, k);
    assert SweepLocks(st1, s.userId, []) == Sweep(st1, [], false);
    assert SweepLocks(s1, s.userId, [k])
      == Sweep(st1, [Emission(ToRoom(path + ":"), FileUnlocked(""))], false);
  }
}

=== FILE: editor_handler.dfy ===
/** The editor socket handlers for rooms and locks. Each handler is one atomic
    step from a store to a new store and the emissions it makes.

    In the source each handler awaits between its store calls, so two
    handlers can interleave. Two such check-then-act gaps matter for locks:
    `transferLock` reads the lock and later overwrites it, and `leaveFileRoom`
    reads the holder and later deletes the lock; another connection can
    change the lock in between. The model runs each handler as one step and
    does not cover those interleavings. */
module EditorHandler {
  import opened Wrappers
  import opened Text
  import opened Store
  import opened LockJson
  import opened Keys
  import opened Events

  datatype Step = Step(store: Store, emits: seq<Emission>)

  /** The holder named by a stored lock value. A value starting with `{` is
      read as JSON and yields its `userId`; if that read fails the raw value
      is used; any other value is the holder's id itself. This accepts both
      the JSON values the socket handlers write and the raw ids the lock
      helper API writes. */
  function DecodeHolder(raw: string): string {
    if |raw| > 0 && raw[0] == '{' then ReadHolder(raw).GetOr(raw) else raw
  }

  /** The state of one path's lock, as the decoder sees it. */
  datatype LockState = Unlocked | Locked(holder: string)

  function LockStateOf(st: Store, path: string): LockState {
    match Get(st, LockKey(path))
    case None => Unlocked
    case Some(raw) => Locked(DecodeHolder(raw))
  }

  /** Only the presence set at `key` may differ between `a` and `b`. */
  predicate OnlySetChanged(a: Store, b: Store, key: string) {
    a.now == b.now && a.strings == b.strings && a.sets - {key} == b.sets - {key}
  }

  /** Only the string at `key` may differ between `a` and `b`. */
  predicate OnlyLockChanged(a: Store, b: Store, key: string) {
    a.now == b.now && a.sets == b.sets && a.strings - {key} == b.strings - {key}
  }

  /** `joinProjectRoom`: a user with no profile is ignored; otherwise the user
      joins the project's presence set, the room is told, and the joiner gets
      the whole membership, itself included. */
  function JoinProjectRoom(st: Store, s: Session, look: Lookups, projectId: string): (r: Step)
    ensures s.userId !in look.profiles ==> r == Step(st, [])
    ensures s.userId in look.profiles ==>
      && Members(r.store, ProjectUsersKey(projectId)) == Members(st, ProjectUsersKey(projectId)) + {s.userId}
      && OnlySetChanged(st, r.store, ProjectUsersKey(projectId))
      && |r.emits| == 2
      && r.emits[0].to == ToRoom(projectId)
      && r.emits[0].event.UserJoinedProject?
      && r.emits[0].event.user == UserInfo(s.userId, look.profiles[s.userId].username,
                                           look.profiles[s.userId].avatarUrl, s.socketId)
      && r.emits[1].to == ToCaller
      && r.emits[1].event == InitialUsers(Roster(look, Members(r.store, ProjectUsersKey(projectId))))
      && InfoOf(look, s.userId) in r.emits[1].event.users
  {
    var key := ProjectUsersKey(projectId);
    if s.userId !in look.profiles then Step(st, [])
    else
      var p := look.profiles[s.userId];
      var st1 := SAdd(st, key, s.userId);
      Step(st1, [
        Emission(ToRoom(projectId), UserJoinedProject(UserInfo(s.userId, p.username, p.avatarUrl, s.socketId))),
        Emission(ToCaller, InitialUsers(Roster(look, Members(st1, key))))])
  }

  /** `leaveProjectRoom`: the user leaves the project's presence set and the room is told. */
  function LeaveProjectRoom(st: Store, s: Session, projectId: string): (r: Step)
    ensures Members(r.store, ProjectUsersKey(projectId)) == Members(st, ProjectUsersKey(projectId)) - {s.userId}
    ensures OnlySetChanged(st, r.store, ProjectUsersKey(projectId))
    ensures r.emits == [Emission(ToRoom(projectId), UserLeftProject(s.userId, s.socketId))]
  {
    Step(SRem(st, ProjectUsersKey(projectId), s.userId),
         [Emission(ToRoom(projectId), UserLeftProject(s.userId, s.socketId))])
  }

  /** `joinFileRoom`: the user joins the file's presence set, the file room is
      told, the joiner gets the file's members, and, when a lock value is set
      (non-empty), the joiner is also told the decoded holder. */
  function JoinFileRoom(st: Store, s: Session, look: Lookups, projectId: string, path: string): (r: Step)
    ensures Members(r.store, FilePresenceKey(projectId, path)) == Members(st, FilePresenceKey(projectId, path)) + {s.userId}
    ensures OnlySetChanged(st, r.store, FilePresenceKey(projectId, path))
    ensures |r.emits| == 2 || |r.emits| == 4
    ensures r.emits[0] == Emission(ToRoom(FileRoom(projectId, path)), UserJoinedFile(InfoOf(look, s.userId).(socketId := s.socketId), path))
    ensures r.emits[1].to == ToCaller && r.emits[1].event.InitialFileUsers?
    ensures r.emits[1].event.users == Roster(look, Members(r.store, FilePresenceKey(projectId, path)))
    ensures InfoOf(look, s.userId) in r.emits[1].event.users
    ensures |r.emits| == 4 <==> Truthy(Get(st, LockKey(path)))
    ensures |r.emits| == 4 ==>
      && r.emits[2].to == ToCaller && r.emits[2].event.FileLocked? && r.emits[2].event.filePath == path
      && LockStateOf(st, path) == Locked(r.emits[2].event.userId)
      && r.emits[3] == Emission(ToCaller, InitialFileLocks(path, r.emits[2].event.userId))
  {
    var holder := Get(st, LockKey(path));
    var key := FilePresenceKey(projectId, path);
    var st1 := SAdd(st, key, s.userId);
    var joined := [
      Emission(ToRoom(FileRoom(projectId, path)), UserJoinedFile(InfoOf(look, s.userId).(socketId := s.socketId), path)),
      Emission(ToCaller, InitialFileUsers(path, Roster(look, Members(st1, key))))];
    if Truthy(holder) then
      var h := DecodeHolder(holder.value);
      Step(st1, joined + [Emission(ToCaller, FileLocked(path, h)), Emission(ToCaller, InitialFileLocks(path, h))])
    else Step(st1, joined)
  }

  /** `leaveFileRoom`: the user leaves the file's presence set and the room is
      told; the lock is deleted, and the room told, exactly when its decoded
      holder is the leaving user. Nothing else changes. */
  function LeaveFileRoom(st: Store, s: Session, projectId: string, path: string): (r: Step)
    ensures Members(r.store, FilePresenceKey(projectId, path)) == Members(st, FilePresenceKey(projectId, path)) - {s.userId}
    ensures r.store.now == st.now
    ensures r.store.sets - {FilePresenceKey(projectId, path)} == st.sets - {FilePresenceKey(projectId, path)}
    ensures |r.emits| >= 1 && r.emits[0] == Emission(ToRoom(FileRoom(projectId, path)), UserLeftFile(s.userId, path))
    ensures LockStateOf(st, path) == Locked(s.userId) ==>
      && LockStateOf(r.store, path) == Unlocked
      && r.store.strings == st.strings - {LockKey(path)}
      && r.emits[1..] == [Emission(ToRoom(FileRoom(projectId, path)), FileUnlocked(path))]
    ensures LockStateOf(st, path) != Locked(s.userId) ==> r.store.strings == st.strings && |r.emits| == 1
  {
    var st1 := SRem(st, FilePresenceKey(projectId, path), s.userId);
    var left := Emission(ToRoom(FileRoom(projectId, path)), UserLeftFile(s.userId, path));
    // the holder is read after the presence update; the model takes both as one step
    match Get(st1, LockKey(path))
    case Some(raw) =>
      if DecodeHolder(raw) == s.userId then
        Step(Del(st1, LockKey(path)), [left, Emission(ToRoom(FileRoom(projectId, path)), FileUnlocked(path))])
      else Step(st1, [left])
    case None => Step(st1, [left])
  }

  /** `lockFile`: set-if-absent of the JSON value naming the caller, with a
      300-unit time-to-live. On a grant the file room is told; on contention
      the store is untouched and only the caller is told the current holder.
      A held value that is not JSON makes `JSON.parse` throw, so the caller
      hears nothing. */
  function LockFile(st: Store, s: Session, projectId: string, path: string): (r: Step)
    ensures Get(st, LockKey(path)).None? ==>
      && LockStateOf(r.store, path) == Locked(s.userId)
      && Get(r.store, LockKey(path)) == Some(EncodeHolder(s.userId))
      && Deadline(r.store, LockKey(path)) == Some(st.now + LockTtl)
      && OnlyLockChanged(st, r.store, LockKey(path))
      && r.emits == [Emission(ToRoom(FileRoom(projectId, path)), FileLocked(path, s.userId))]
    ensures Get(st, LockKey(path)).Some? ==>
      && r.store == st
      && |r.emits| <= 1
      && (|r.emits| == 1 <==> ReadHolder(Get(st, LockKey(path)).value).Some?)
      && (|r.emits| == 1 ==>
            r.emits[0] == Emission(ToCaller, FileLocked(path, ReadHolder(Get(st, LockKey(path)).value).value)))
  {
    var key := LockKey(path);
    var (ok, st1) := SetNx(st, key, EncodeHolder(s.userId), LockTtl);
    if ok then
      ReadEncodedHolder(s.userId);
      Step(st1, [Emission(ToRoom(FileRoom(projectId, path)), FileLocked(path, s.userId))])
    else
      match Get(st, key)
      case None => Step(st, [])
      case Some(current) =>
        if current == "" then Step(st, [])
        else
          match ReadHolder(current)
          case None => Step(st, [])
          case Some(holder) => Step(st, [Emission(ToCaller, FileLocked(path, holder))])
  }

  /** `transferLock`: errors go to the caller only and change nothing: no
      lock, a value that is not JSON, or a caller who is not the holder.
      Otherwise the lock names the new holder with a fresh 300-unit
      time-to-live and the file room is told. */
  function TransferLock(st: Store, s: Session, projectId: string, path: string, toUserId: string): (r: Step)
    ensures !Truthy(Get(st, LockKey(path))) ==>
      r == Step(st, [Emission(ToCaller, Error("No lock found to transfer"))])
    ensures Truthy(Get(st, LockKey(path))) && ReadHolder(Get(st, LockKey(path)).value).None? ==>
      r == Step(st, [Emission(ToCaller, Error("Lock data corrupted"))])
    ensures Truthy(Get(st, LockKey(path))) && ReadHolder(Get(st, LockKey(path)).value).Some?
            && ReadHolder(Get(st, LockKey(path)).value).value != s.userId ==>
      r == Step(st, [Emission(ToCaller, Error("You don't hold the lock"))])
    ensures Get(st, LockKey(path)).Some? && ReadHolder(Get(st, LockKey(path)).value) == Some(s.userId) ==>
      && LockStateOf(r.store, path) == Locked(toUserId)
      && Get(r.store, LockKey(path)) == Some(EncodeHolder(toUserId))
      && Deadline(r.store, LockKey(path)) == Some(st.now + LockTtl)
      && OnlyLockChanged(st, r.store, LockKey(path))
      && r.emits == [Emission(ToRoom(FileRoom(projectId, path)), FileLocked(path, toUserId))]
  {
    var key := LockKey(path);
    var raw := Get(st, key);
    if !Truthy(raw) then Step(st, [Emission(ToCaller, Error("No lock found to transfer"))])
    else
      match ReadHolder(raw.value)
      case None => Step(st, [Emission(ToCaller, Error("Lock data corrupted"))])
      case Some(holder) =>
        if holder != s.userId then Step(st, [Emission(ToCaller, Error("You don't hold the lock"))])
        else
          // the lock was read above and is overwritten here; the model takes both as one step
          ReadEncodedHolder(toUserId);
          Step(SetEx(st, key, EncodeHolder(toUserId), LockTtl),
               [Emission(ToRoom(FileRoom(projectId, path)), FileLocked(path, toUserId))])
  }

  /** `requestLock`: a notice to the file room naming the requester; the store is untouched. */
  function RequestLock(st: Store, s: Session, look: Lookups, projectId: string, path: string): (r: Step)
    ensures r.store == st
    ensures |r.emits| == 1 && r.emits[0].to == ToRoom(FileRoom(projectId, path))
    ensures r.emits[0].event.FileLockRequested? && r.emits[0].event.requesterUserId == s.userId
    ensures r.emits[0].event.filePath == path && r.emits[0].event.projectId == projectId
    ensures s.userId in look.profiles && look.profiles[s.userId].username != "" ==>
      r.emits[0].event.requestedBy == look.profiles[s.userId].username
    ensures s.userId !in look.profiles || look.profiles[s.userId].username == "" ==>
      r.emits[0].event.requestedBy == "Unknown"
    ensures r.emits[0].event.requestedBy != ""
  {
    Step(st, [Emission(ToRoom(FileRoom(projectId, path)),
                       FileLockRequested(path, projectId, DisplayName(look, s.userId), s.userId))])
  }

  /** The client events the handlers above answer. */
  datatype ClientEvent =
    | JoinProject(projectId: string)
    | LeaveProject(projectId: string)
    | JoinFile(projectId: string, path: string)
    | LeaveFile(projectId: string, path: string)
    | Lock(projectId: string, path: string)
    | Transfer(projectId: string, path: string, toUserId: string)
    | Request(projectId: string, path: string)

  function Handle(st: Store, s: Session, look: Lookups, ev: ClientEvent): Step {
    match ev
    case JoinProject(p) => JoinProjectRoom(st, s, look, p)
    case LeaveProject(p) => LeaveProjectRoom(st, s, p)
    case JoinFile(p, f) => JoinFileRoom(st, s, look, p, f)
    case LeaveFile(p, f) => LeaveFileRoom(st, s, p, f)
    case Lock(p, f) => LockFile(st, s, p, f)
    case Transfer(p, f, to) => TransferLock(st, s, p, f, to)
    case Request(p, f) => RequestLock(st, s, look, p, f)
  }

  /** Every visible lock value is one the socket handlers could have written:
      it reads as JSON naming a holder. */
  predicate JsonLocks(st: Store) {
    forall k :: k in StringKeys(st, LockPrefix) ==> ReadHolder(st.strings[k].value).Some?
  }

  /** Both encodings decode to the holder they were written for. */
  lemma DecodeHolderAcceptsBoth(u: string, raw: string)
    ensures DecodeHolder(EncodeHolder(u)) == u
    ensures (|raw| == 0 || raw[0] != '{') ==> DecodeHolder(raw) == raw
    ensures ReadHolder(raw).None? ==> DecodeHolder(raw) == raw
  {
    ReadEncodedHolder(u);
  }

  /** A second `lockFile` on a path that the first one took is refused, and the
      second caller is told the first one holds it. */
  lemma ContendedLockNamesHolder(st: Store, a: Session, b: Session, projectId: string, path: string)
    requires LockStateOf(st, path) == Unlocked
    ensures var s1 := LockFile(st, a, projectId, path).store;
      LockFile(s1, b, projectId, path) == Step(s1, [Emission(ToCaller, FileLocked(path, a.userId))])
  {
    ReadEncodedHolder(a.userId);
  }

  /** A lock that is never released is gone once its time-to-live has passed,
      and then anyone's `lockFile` is granted. */
  lemma UnreleasedLockExpires(st: Store, a: Session, b: Session, projectId: string, path: string, d: nat)
    requires LockStateOf(st, path) == Unlocked && d >= LockTtl
    ensures var s1 := Advance(LockFile(st, a, projectId, path).store, d);
      LockStateOf(s1, path) == Unlocked && LockStateOf(LockFile(s1, b, projectId, path).store, path) == Locked(b.userId)
  {
  }

  /** Transfer is decided by the holder the lock value names: the holder moves
      it, anyone else is refused and nothing changes. */
  lemma TransferByHolderOnly(st: Store, s: Session, projectId: string, path: string, holder: string, to: string)
    requires Get(st, LockKey(path)) == Some(EncodeHolder(holder))
    ensures var r := TransferLock(st, s, projectId, path, to);
      && (s.userId == holder ==> LockStateOf(r.store, path) == Locked(to))
      && (s.userId != holder ==> r == Step(st, [Emission(ToCaller, Error("You don't hold the lock"))]))
  {
    ReadEncodedHolder(holder);
  }

  /** Transferring to another user and back restores the original holder. */
  lemma TransferThereAndBack(st: Store, a: Session, b: Session, projectId: string, path: string)
    requires Get(st, LockKey(path)) == Some(EncodeHolder(a.userId))
    ensures var s1 := TransferLock(st, a, projectId, path, b.userId).store;
      var s2 := TransferLock(s1, b, projectId, path, a.userId).store;
      Get(s2, LockKey(path)) == Get(st, LockKey(path)) && s2.sets == st.sets
      && s2.strings - {LockKey(path)} == st.strings - {LockKey(path)}
  {
    ReadEncodedHolder(a.userId);
    ReadEncodedHolder(b.userId);
  }

  /** Leaving a file room releases a lock the leaver holds in either encoding,
      and no lock held by someone else. */
  lemma LeaveReleasesOwnLockOnly(st: Store, s: Session, projectId: string, path: string, holder: string)
    requires Get(st, LockKey(path)) == Some(EncodeHolder(holder))
      || (Get(st, LockKey(path)) == Some(holder) && (holder == "" || holder[0] != '{'))
    ensures LockStateOf(LeaveFileRoom(st, s, projectId, path).store, path)
      == if holder == s.userId then Unlocked else Locked(holder)
  {
    ReadEncodedHolder(holder);
  }

  /** Joining and then leaving a file room restores its presence set when the
      user was not in it and holds no lock there. */
  lemma JoinThenLeaveFileRoom(st: Store, s: Session, look: Lookups, projectId: string, path: string)
    requires s.userId !in Members(st, FilePresenceKey(projectId, path))
    requires LockStateOf(st, path) != Locked(s.userId)
    ensures var s2 := LeaveFileRoom(JoinFileRoom(st, s, look, projectId, path).store, s, projectId, path).store;
      s2.strings == st.strings && forall k :: Members(s2, k) == Members(st, k)
  {
    var key := FilePresenceKey(projectId, path);
    var s1 := JoinFileRoom(st, s, look, projectId, path).store;
    var s2 := LeaveFileRoom(s1, s, projectId, path).store;
    forall k ensures Members(s2, k) == Members(st, k) {
      if k != key {
        assert k in s2.sets <==> k in st.sets;
      }
    }
  }

  /** Joining and then leaving a project room restores its presence set when the user was not in it. */
  lemma JoinThenLeaveProjectRoom(st: Store, s: Session, look: Lookups, projectId: string)
    requires s.userId !in Members(st, ProjectUsersKey(projectId))
    ensures var s2 := LeaveProjectRoom(JoinProjectRoom(st, s, look, projectId).store, s, projectId).store;
      s2.strings == st.strings && forall k :: Members(s2, k) == Members(st, k)
  {
    var key := ProjectUsersKey(projectId);
    var s1 := JoinProjectRoom(st, s, look, projectId).store;
    var s2 := LeaveProjectRoom(s1, s, projectId).store;
    forall k ensures Members(s2, k) == Members(st, k) {
      if k != key {
        assert k in s2.sets <==> k in st.sets;
      }
    }
  }

  /** A store that changes at most one key, at the same time, keeps every
      lock value readable if that key's visible value is readable. */
  lemma OneKeyKeepsJson(st: Store, r: Store, key: string)
    requires JsonLocks(st)
    requires r.now == st.now && r.strings - {key} == st.strings - {key}
    requires key in StringKeys(r, LockPrefix) ==> ReadHolder(r.strings[key].value).Some?
    ensures JsonLocks(r)
  {
    forall k | k in StringKeys(r, LockPrefix) && k != key ensures ReadHolder(r.strings[k].value).Some? {
      assert k in r.strings - {key};
      assert k in st.strings - {key};
      assert r.strings[k] == (r.strings - {key})[k] == (st.strings - {key})[k] == st.strings[k];
      assert k in StringKeys(st, LockPrefix);
    }
  }

  lemma LockKeepsJson(st: Store, s: Session, p: string, f: string)
    requires JsonLocks(st)
    ensures JsonLocks(LockFile(st, s, p, f).store)
  {
    ReadEncodedHolder(s.userId);
    var r := LockFile(st, s, p, f).store;
    if LockKey(f) in StringKeys(r, LockPrefix) && LockKey(f) !in StringKeys(st, LockPrefix) {
      assert Get(r, LockKey(f)) == Some(EncodeHolder(s.userId));
    }
    OneKeyKeepsJson(st, r, LockKey(f));
  }

  lemma TransferKeepsJson(st: Store, s: Session, p: string, f: string, to: string)
    requires JsonLocks(st)
    ensures JsonLocks(TransferLock(st, s, p, f, to).store)
  {
    ReadEncodedHolder(to);
    OneKeyKeepsJson(st, TransferLock(st, s, p, f, to).store, LockKey(f));
  }

  lemma LeaveFileKeepsJson(st: Store, s: Session, p: string, f: string)
    requires JsonLocks(st)
    ensures JsonLocks(LeaveFileRoom(st, s, p, f).store)
  {
    var r := LeaveFileRoom(st, s, p, f).store;
    assert forall k :: k in StringKeys(r, LockPrefix) ==> k in StringKeys(st, LockPrefix);
  }

  /** Every handler keeps every visible lock value readable as JSON, and a
      handler for one path leaves every other path's lock as it was. */
  lemma HandleKeepsJsonLocks(st: Store, s: Session, look: Lookups, ev: ClientEvent)
    requires JsonLocks(st)
    ensures JsonLocks(Handle(st, s, look, ev).store)
    ensures Handle(st, s, look, ev).store.now == st.now
    ensures !ev.JoinProject? && !ev.LeaveProject? ==>
      Handle(st, s, look, ev).store.strings - {LockKey(ev.path)} == st.strings - {LockKey(ev.path)}
  {
    var r := Handle(st, s, look, ev).store;
    match ev
    case Lock(p, f) => LockKeepsJson(st, s, p, f);
    case Transfer(p, f, to) => TransferKeepsJson(st, s, p, f, to);
    case LeaveFile(p, f) => LeaveFileKeepsJson(st, s, p, f);
    case _ =>
      assert r.strings == st.strings;
      assert forall k :: k in StringKeys(r, LockPrefix) ==> k in StringKeys(st, LockPrefix);
  }

  /** Time passing keeps every visible lock value readable: expiry only hides values. */
  lemma AdvanceKeepsJsonLocks(st: Store, d: nat)
    requires JsonLocks(st)
    ensures JsonLocks(Advance(st, d))
  {
    assert forall k :: k in StringKeys(Advance(st, d), LockPrefix) ==> k in StringKeys(st, LockPrefix);
  }
}

=== FILE: editor_namespace.dfy ===
/** The `/editor` namespace: admission of a socket by its token cookie,
    registration in the project's presence set on connection, the `getPort`
    lookup, and the clean-up when the socket disconnects.

    Token verification is an oracle: a map from the tokens that verify to
    the `userId` claim they carry (absent when the claim is missing). Cookie
    parsing is left to the caller, which passes the `token` cookie if any. */
module EditorNamespace {
  import opened Wrappers
  import opened Text
  import opened Store
  import opened Keys
  import opened Events
  import opened Containers
  import opened EditorHandler

  datatype Admission = Rejected(message: string) | Admitted(userId: Option<string>)

  /** The namespace middleware: no token, or an empty one, is an
      authentication error; a token the verifier rejects is an authentication
      failure; otherwise the socket carries the token's `userId` claim. */
  function Admit(token: Option<string>, verified: map<string, Option<string>>): (r: Admission)
    ensures r == Rejected("Authentication error") <==> !Truthy(token)
    ensures r == Rejected("Authentication failed") <==> Truthy(token) && token.value !in verified
    ensures r.Admitted? ==> Truthy(token) && token.value in verified && r.userId == verified[token.value]
  {
    if !Truthy(token) then Rejected("Authentication error")
    else if token.value !in verified then Rejected("Authentication failed")
    else Admitted(verified[token.value])
  }

  /** The connection handler: a socket without a project id or without a
      user id is dropped and the store is not touched; otherwise the user
      joins `project-users:<projectId>` and receives that set's members. The
      returned flag says whether the connection was kept. */
  function Connect(st: Store, projectId: Option<string>, userId: Option<string>): (r: (bool, Step))
    ensures !r.0 <==> !Truthy(projectId) || !Truthy(userId)
    ensures !r.0 ==> r.1 == Step(st, [])
    ensures r.0 ==>
      && Members(r.1.store, ProjectUsersKey(projectId.value)) == Members(st, ProjectUsersKey(projectId.value)) + {userId.value}
      && OnlySetChanged(st, r.1.store, ProjectUsersKey(projectId.value))
      && |r.1.emits| == 1 && r.1.emits[0].to == ToCaller && r.1.emits[0].event.InitialUserIds?
      && r.1.emits[0].event.ids == Members(r.1.store, ProjectUsersKey(projectId.value))
      && userId.value in r.1.emits[0].event.ids
  {
    if !Truthy(projectId) || !Truthy(userId) then (false, Step(st, []))
    else
      var key := ProjectUsersKey(projectId.value);
      var st1 := SAdd(st, key, userId.value);
      (true, Step(st1, [Emission(ToCaller, InitialUserIds(Members(st1, key)))]))
  }

  /** `getPort`: the port of the container named after the requested project. */
  function GetPort(listing: Option<seq<Container>>, projectId: string): (r: Emission)
    ensures r.to == ToCaller && r.event.GetPortSuccess?
    ensures r.event.port.Port? <==>
      listing.Some? && exists i :: IsFirstCandidate(listing.value, "project-" + projectId, i)
                                   && HasPublicPort(listing.value[i])
    ensures r.event.port.Port? ==>
      forall i :: IsFirstCandidate(listing.value, "project-" + projectId, i) ==>
        listing.value[i].ports[0] == Some(r.event.port.number)
  {
    Emission(ToCaller, GetPortSuccess(GetContainerPort(listing, ContainerName(projectId))))
  }

  /** `project-users:<projectId>:`: the prefix the disconnect handler scans and strips. */
  function FileKeysPrefix(projectId: string): string {
    ProjectUsersPrefix + projectId + ":"
  }

  /** The loop over the `KEYS project-users:<projectId>:*` reply: remove the
      user from each set and tell the room named after the stripped key. */
  function LeaveFileKeys(st: Store, projectId: string, userId: string, socketId: string, keys: seq<string>): (r: Step)
    ensures r.store.now == st.now && r.store.strings == st.strings
    ensures forall k :: k in keys ==> Members(r.store, k) == Members(st, k) - {userId}
    ensures forall k :: k !in keys ==> Members(r.store, k) == Members(st, k)
    ensures NoEmptySets(st) ==> NoEmptySets(r.store)
    ensures |r.emits| == |keys|
    ensures forall i :: 0 <= i < |keys| ==>
      var path := RemoveFirst(keys[i], FileKeysPrefix(projectId));
      r.emits[i] == Emission(ToRoom(FileRoom(projectId, path)), FileUserLeftAt(userId, path, socketId))
    decreases |keys|
  {
    if |keys| == 0 then Step(st, [])
    else
      var path := RemoveFirst(keys[0], FileKeysPrefix(projectId));
      var tail := LeaveFileKeys(SRem(st, keys[0], userId), projectId, userId, socketId, keys[1..]);
      assert forall k :: k in keys <==> k == keys[0] || k in keys[1..];
      Step(tail.store, [Emission(ToRoom(FileRoom(projectId, path)), FileUserLeftAt(userId, path, socketId))] + tail.emits)
  }

  /** The disconnect handler: leave the project's presence set, tell the
      project room, then sweep the `project-users:<projectId>:` sets. */
  function Disconnect(st: Store, projectId: string, userId: string, socketId: string, keys: seq<string>): (r: Step)
    ensures r.store.now == st.now && r.store.strings == st.strings
    ensures |r.emits| == 1 + |keys|
    ensures r.emits[0] == Emission(ToRoom(projectId), UserLeft(userId, socketId))
    ensures userId !in Members(r.store, ProjectUsersKey(projectId))
    ensures forall k :: k in keys ==> userId !in Members(r.store, k)
    ensures forall k :: Members(r.store, k) - {userId} == Members(st, k) - {userId}
    ensures forall k :: k != ProjectUsersKey(projectId) && k !in keys ==> Members(r.store, k) == Members(st, k)
    ensures NoEmptySets(st) ==> NoEmptySets(r.store)
  {
    var key := ProjectUsersKey(projectId);
    var st1 := SRem(st, key, userId);
    var swept := LeaveFileKeys(st1, projectId, userId, socketId, keys);
    Step(swept.store, [Emission(ToRoom(projectId), UserLeft(userId, socketId))] + swept.emits)
  }

  /** The `project-users:<projectId>` key itself never matches the scanned pattern. */
  lemma ProjectKeyNotScanned(projectId: string)
    ensures !IsPrefix(FileKeysPrefix(projectId), ProjectUsersKey(projectId))
  {
    assert |FileKeysPrefix(projectId)| > |ProjectUsersKey(projectId)|;
  }

  /** The file presence sets the editor handlers keep live under
      `file-users:`, so the namespace's sweep of `project-users:<projectId>:`
      never reaches one of them. */
  lemma FilePresenceNotScanned(projectId: string, otherProject: string, path: string)
    ensures !IsPrefix(FileKeysPrefix(projectId), FilePresenceKey(otherProject, path))
  {
    assert FileKeysPrefix(projectId)[0] == 'p';
    assert FilePresenceKey(otherProject, path)[0] == 'f';
  }

  /** After a disconnect with a faithful `KEYS` reply, the user is in neither
      the project's presence set nor any set under `project-users:<projectId>:`;
      every other set and every member other than the user are as before. */
  lemma DisconnectRemoves(st: Store, projectId: string, userId: string, socketId: string, keys: seq<string>)
    requires IsKeysReply(keys, SetKeys(SRem(st, ProjectUsersKey(projectId), userId), FileKeysPrefix(projectId)))
    ensures var r := Disconnect(st, projectId, userId, socketId, keys);
      && userId !in Members(r.store, ProjectUsersKey(projectId))
      && (forall k :: IsPrefix(FileKeysPrefix(projectId), k) ==> userId !in Members(r.store, k))
      && (forall k :: Members(r.store, k) - {userId} == Members(st, k) - {userId})
      && (forall k :: k != ProjectUsersKey(projectId) && !IsPrefix(FileKeysPrefix(projectId), k) ==>
            Members(r.store, k) == Members(st, k))
  {
    var key := ProjectUsersKey(projectId);
    var st1 := SRem(st, key, userId);
    var r := Disconnect(st, projectId, userId, socketId, keys);
    ProjectKeyNotScanned(projectId);
    forall k | IsPrefix(FileKeysPrefix(projectId), k) ensures userId !in Members(r.store, k) {
      if k in st1.sets {
        assert k in SetKeys(st1, FileKeysPrefix(projectId));
      }
    }
    forall k | k != key && !IsPrefix(FileKeysPrefix(projectId), k) ensures Members(r.store, k) == Members(st, k) {
      assert k !in keys;
    }
  }

  /** Each reported file path is the scanned key with its prefix taken off, so
      prefix and path put back together give the key again. */
  lemma ReportedPathIsSuffix(st: Store, projectId: string, userId: string, socketId: string, keys: seq<string>, i: nat)
    requires IsKeysReply(keys, SetKeys(SRem(st, ProjectUsersKey(projectId), userId), FileKeysPrefix(projectId)))
    requires i < |keys|
    ensures var e := Disconnect(st, projectId, userId, socketId, keys).emits[i + 1];
      && e.event.FileUserLeftAt?
      && FileKeysPrefix(projectId) + e.event.filePath == keys[i]
      && e.to == ToRoom(projectId + ":" + e.event.filePath)
  {
    var st1 := SRem(st, ProjectUsersKey(projectId), userId);
    assert keys[i] in SetKeys(st1, FileKeysPrefix(projectId));
    RemoveFirstOfPrefix(keys[i], FileKeysPrefix(projectId));
    var r := Disconnect(st, projectId, userId, socketId, keys);
    var swept := LeaveFileKeys(st1, projectId, userId, socketId, keys);
    assert r.emits[i + 1] == swept.emits[i];
  }

  /** A second delivery of the disconnect, with the `KEYS` reply of the
      store the first one left, changes nothing in the store; it does
      broadcast `userLeft` to the project room again. */
  lemma {:induction false} DisconnectIdempotent(st: Store, projectId: string, userId: string, socketId: string,
                                                keys: seq<string>, keys2: seq<string>)
    requires NoEmptySets(st)
    requires IsKeysReply(keys, SetKeys(SRem(st, ProjectUsersKey(projectId), userId), FileKeysPrefix(projectId)))
    requires var r := Disconnect(st, projectId, userId, socketId, keys);
      IsKeysReply(keys2, SetKeys(SRem(r.store, ProjectUsersKey(projectId), userId), FileKeysPrefix(projectId)))
    ensures var r := Disconnect(st, projectId, userId, socketId, keys);
      var r2 := Disconnect(r.store, projectId, userId, socketId, keys2);
      r2.store == r.store && r2.emits[0] == r.emits[0]
  {
    var r := Disconnect(st, projectId, userId, socketId, keys);
    DisconnectRemoves(st, projectId, userId, socketId, keys);
    var key := ProjectUsersKey(projectId);
    assert SRem(r.store, key, userId) == r.store;
    forall i | 0 <= i < |keys2| ensures userId !in Members(r.store, keys2[i]) {
      assert keys2[i] in SetKeys(r.store, FileKeysPrefix(projectId));
    }
    LeaveAbsentKeeps(r.store, projectId, userId, socketId, keys2);
  }

  lemma {:induction false} LeaveAbsentKeeps(st: Store, projectId: string, userId: string, socketId: string, keys: seq<string>)
    requires NoEmptySets(st)
    requires forall i :: 0 <= i < |keys| ==> userId !in Members(st, keys[i])
    ensures LeaveFileKeys(st, projectId, userId, socketId, keys).store == st
    decreases |keys|
  {
    if |keys| > 0 {
      assert SRem(st, keys[0], userId) == st;
      LeaveAbsentKeeps(st, projectId, userId, socketId, keys[1..]);
    }
  }

  /** The scan is a prefix match, so a project whose id extends this one's
      with `":"` is swept too: leaving project `p` removes the user from the
      presence set of project `p:x` and reports the file path `x`. */
  lemma SweepReachesLongerProject(st: Store, userId: string, socketId: string)
    requires st.sets == map[ProjectUsersKey("p:x") := {userId}]
    ensures var r := Disconnect(st, "p", userId, socketId, [ProjectUsersKey("p:x")]);
      && IsKeysReply([ProjectUsersKey("p:x")], SetKeys(SRem(st, ProjectUsersKey("p"), userId), FileKeysPrefix("p")))
      && userId !in Members(r.store, ProjectUsersKey("p:x"))
      && r.emits[1] == Emission(ToRoom("p:x"), FileUserLeftAt(userId, "x", socketId))
  {
    var k := ProjectUsersKey("p:x");
    assert k == FileKeysPrefix("p") + "x";
    assert IsPrefix(FileKeysPrefix("p"), k);
    RemoveFirstOfPrefix(k, FileKeysPrefix("p"));
    var st1 := SRem(st, ProjectUsersKey("p"), userId);
    assert ProjectUsersKey("p") != k;
    assert st1.sets.Keys == {k};
    assert SetKeys(st1, FileKeysPrefix("p")) == {k};
    var r := Disconnect(st, "p", userId, socketId, [k]);
    assert RemoveFirst(k, FileKeysPrefix("p")) == "x";
    assert FileRoom("p", "x") == "p:x";
    assert r.emits[1] == Emission(ToRoom("p:x"), FileUserLeftAt(userId, "x", socketId));
  }
  /** A socket admitted with a truthy `userId` claim, connecting for a
      project, is kept and finds itself in the member list it receives. */
  lemma AdmittedSocketConnects(st: Store, token: Option<string>, verified: map<string, Option<string>>, projectId: string)
    requires Truthy(token) && token.value in verified && Truthy(verified[token.value]) && projectId != ""
    ensures var a := Admit(token, verified);
      && a == Admitted(verified[token.value])
      && var (kept, step) := Connect(st, Some(projectId), a.userId);
      kept && a.userId.value in step.emits[0].event.ids
  {
  }

  /** Connecting and then disconnecting, for a user who was not in the
      project's presence set, restores that set; every other set differs at
      most by the user, and no string changes. */
  lemma ConnectThenDisconnect(st: Store, projectId: string, userId: string, socketId: string, keys: seq<string>)
    requires projectId != "" && userId != ""
    requires userId !in Members(st, ProjectUsersKey(projectId))
    requires IsKeysReply(keys, SetKeys(SRem(Connect(st, Some(projectId), Some(userId)).1.store, ProjectUsersKey(projectId), userId),
                                       FileKeysPrefix(projectId)))
    ensures var s1 := Connect(st, Some(projectId), Some(userId)).1.store;
      var r := Disconnect(s1, projectId, userId, socketId, keys);
      && Members(r.store, ProjectUsersKey(projectId)) == Members(st, ProjectUsersKey(projectId))
      && (forall k :: Members(r.store, k) - {userId} == Members(st, k) - {userId})
      && r.store.strings == st.strings
  {
    var key := ProjectUsersKey(projectId);
    var s1 := Connect(st, Some(projectId), Some(userId)).1.store;
    var r := Disconnect(s1, projectId, userId, socketId, keys);
    DisconnectRemoves(s1, projectId, userId, socketId, keys);
    assert Members(r.store, key) - {userId} == Members(s1, key) - {userId} == Members(st, key);
    forall k ensures Members(r.store, k) - {userId} == Members(st, k) - {userId} {
      if k != key {
        assert Members(s1, k) == Members(st, k);
      }
    }
  }
}

=== FILE: events.dfy ===
/** What the socket handlers emit, and the lookups they consult for display data.

    A broadcast is recorded as the room it is sent to and the event; Socket.IO
    delivery itself is not modelled. */
module Events {

  datatype Target = ToRoom(room: string) | ToCaller

  /** One entry of a user list: id, display name, avatar and socket id. */
  datatype UserInfo = UserInfo(userId: string, username: string, avatarUrl: string, socketId: string)

  datatype Event =
    | UserJoinedProject(user: UserInfo)
    | InitialUsers(users: set<UserInfo>)
    | UserLeftProject(userId: string, socketId: string)
    | UserJoinedFile(user: UserInfo, filePath: string)
    | InitialFileUsers(filePath: string, users: set<UserInfo>)
    | FileLocked(filePath: string, userId: string)
    | InitialFileLocks(filePath: string, userId: string)
    | UserLeftFile(userId: string, filePath: string)
    | FileUnlocked(filePath: string)
    | Error(message: string)
    | FileLockRequested(filePath: string, projectId: string, requestedBy: string, requesterUserId: string)
    | FileUserLeft(userId: string)
    | InitialUserIds(ids: set<string>)
    | UserLeft(userId: string, socketId: string)
    | FileUserLeftAt(userId: string, filePath: string, socketId: string)
    | GetPortSuccess(port: PortReply)

  /** The port reply: a published port, or null. */
  datatype PortReply = NoPort | Port(number: nat)

  datatype Emission = Emission(to: Target, event: Event)

  /** The connection a handler runs for: the user id it was admitted with
      (`String(socket.userId)`) and its socket id. */
  datatype Session = Session(userId: string, socketId: string)

  datatype Profile = Profile(username: string, avatarUrl: string)

  /** The user-profile lookup (`User.findById`) and the socket-id discovery,
      as partial maps; what they cannot resolve falls back to a placeholder. */
  datatype Lookups = Lookups(profiles: map<string, Profile>, sockets: map<string, string>)

  /** `u?.username || "Unknown"`. */
  function DisplayName(look: Lookups, id: string): (r: string)
    ensures r != ""
    ensures id in look.profiles && look.profiles[id].username != "" ==> r == look.profiles[id].username
    ensures id !in look.profiles || look.profiles[id].username == "" ==> r == "Unknown"
  {
    if id in look.profiles && look.profiles[id].username != "" then look.profiles[id].username else "Unknown"
  }

  /** `u?.avatarUrl || ""`. */
  function AvatarOf(look: Lookups, id: string): string {
    if id in look.profiles then look.profiles[id].avatarUrl else ""
  }

  /** `sock?.id || ""`. */
  function SocketOf(look: Lookups, id: string): string {
    if id in look.sockets then look.sockets[id] else ""
  }

  function InfoOf(look: Lookups, id: string): UserInfo {
    UserInfo(id, DisplayName(look, id), AvatarOf(look, id), SocketOf(look, id))
  }

  /** The user list sent to a joiner: one entry per member, in no particular order. */
  function Roster(look: Lookups, ids: set<string>): (r: set<UserInfo>)
    ensures forall u :: u in r ==> u.userId in ids && u == InfoOf(look, u.userId)
    ensures forall id :: id in ids ==> InfoOf(look, id) in r
  {
    set id | id in ids :: InfoOf(look, id)
  }
}

=== FILE: keys.dfy ===
/** Store keys and room names of the editor socket handlers, and the parser the
    disconnect sweep applies to keys (`key.split(":")`, then the second part is
    the project and the remaining parts re-joined are the file path). */
module Keys {
  import opened Text

  /** Lock time-to-live, in the store's clock units. */
  const LockTtl: nat := 300

  const LockPrefix: string := "file-lock:"
  const FileUsersPrefix: string := "file-users:"
  const ProjectUsersPrefix: string := "project-users:"

  /** `file-lock:<path>`: the lock record of a file. There is no project segment. */
  function LockKey(path: string): string {
    LockPrefix + path
  }

  /** `project-users:<projectId>`: the presence set of a project. */
  function ProjectUsersKey(projectId: string): string {
    ProjectUsersPrefix + projectId
  }

  /** `file-users:<projectId>:<path>`: the presence set of a file. */
  function FilePresenceKey(projectId: string, path: string): string {
    FileUsersPrefix + projectId + ":" + path
  }

  /** `<projectId>:<path>`: the broadcast room of a file. */
  function FileRoom(projectId: string, path: string): string {
    projectId + ":" + path
  }

  /** `const [_, projectId, ...parts] = key.split(":")` with the parts re-joined by `":"`.
      A key without a second part yields the text `"undefined"` as project,
      which is what the template string makes of a missing element. */
  function ParseRoomKey(key: string): (string, string) {
    var parts := Split(key, ':');
    if |parts| < 2 then ("undefined", "") else (parts[1], Join(parts[2..], ':'))
  }

  lemma SplitWithoutSeparator(s: string, sep: char)
    requires sep !in s
    ensures Split(s, sep) == [s]
    decreases |s|
  {
    if |s| > 0 {
      SplitWithoutSeparator(s[1..], sep);
      assert [s[0]] + s[1..] == s;
    }
  }

  /** The parser inverts the presence-key builder whenever the project id holds no `":"`. */
  lemma ParsePresenceKey(projectId: string, path: string)
    requires ':' !in projectId
    ensures ParseRoomKey(FilePresenceKey(projectId, path)) == (projectId, path)
  {
    var key := FilePresenceKey(projectId, path);
    assert key == "file-users" + [':'] + (projectId + [':'] + path);
    SplitAtFirst("file-users", projectId + [':'] + path, ':');
    SplitAtFirst(projectId, path, ':');
    var parts := Split(key, ':');
    assert parts == ["file-users"] + ([projectId] + Split(path, ':'));
    assert parts[2..] == Split(path, ':');
    JoinSplit(path, ':');
  }

  /** Applied to a lock key, the same parser takes the first segment of the
      path as the project and the rest as the path: for a path without `":"`
      the project is the whole path and the path is empty. */
  lemma ParseLockKey(path: string)
    ensures ParseRoomKey(LockKey(path)) == (Split(path, ':')[0], Join(Split(path, ':')[1..], ':'))
    ensures ':' !in path ==> ParseRoomKey(LockKey(path)) == (path, "")
  {
    LockKeySplit(path);
    if ':' !in path {
      SplitWithoutSeparator(path, ':');
    }
  }

  lemma LockKeySplit(path: string)
    ensures Split(LockKey(path), ':') == ["file-lock"] + Split(path, ':')
  {
    assert LockPrefix == "file-lock" + [':'];
    assert LockKey(path) == "file-lock" + [':'] + path;
    SplitAtFirst("file-lock", path, ':');
  }

  /** Consequently the room the disconnect sweep derives from a lock key is
      never the file's room `<projectId>:<path>` when the path holds no `":"`
      and the project id is not empty. */
  lemma LockKeyRoomMisses(projectId: string, path: string)
    requires ':' !in path && projectId != ""
    ensures var (p, f) := ParseRoomKey(LockKey(path));
      FileRoom(p, f) == path + ":" && FileRoom(p, f) != FileRoom(projectId, path)
  {
    ParseLockKey(path);
    assert |FileRoom(projectId, path)| > |path + ":"|;
  }
}

=== FILE: lock_json.dfy ===
/** The JSON encoding of a lock value, `JSON.stringify({ userId })`, and a reader
    standing in for `JSON.parse` followed by `.userId`.

    The reader accepts exactly the texts `{"userId":<JSON string>}`, with the
    full JSON string escape syntax, an escaped surrogate pair reading as one
    character; every other text, a lone escaped surrogate half included, is
    treated as a syntax error. Other valid JSON texts (numbers, other objects, white space between
    tokens) are never written by the modelled code. */
module LockJson {
  import opened Wrappers
  import opened Text

  /** Everything before the quoted user id in an encoded lock value. */
  const HolderPrefix: string := "{\"userId\":\""

  function HexDigit(n: nat): char
    requires n < 16
  {
    if n < 10 then ('0' as int + n) as char else ('a' as int + n - 10) as char
  }

  function HexValue(c: char): Option<nat> {
    if '0' <= c <= '9' then Some(c as int - '0' as int)
    else if 'a' <= c <= 'f' then Some(c as int - 'a' as int + 10)
    else if 'A' <= c <= 'F' then Some(c as int - 'A' as int + 10)
    else None
  }

  /** How `JSON.stringify` writes one character inside a string literal. */
  function EscapeChar(c: char): string {
    if c == '"' then "\\\""
    else if c == '\\' then "\\\\"
    else if c == '\U{0008}' then "\\b"
    else if c == '\t' then "\\t"
    else if c == '\n' then "\\n"
    else if c == '\U{000C}' then "\\f"
    else if c == '\r' then "\\r"
    else if (c as int) < 0x20 then "\\u00" + [HexDigit(c as int / 16), HexDigit(c as int % 16)]
    else [c]
  }

  /** The body of the JSON string literal for `s`, without the surrounding quotes. */
  function Quote(s: string): string
    decreases |s|
  {
    if |s| == 0 then "" else EscapeChar(s[0]) + Quote(s[1..])
  }

  /** `JSON.stringify({ userId })` for a string `userId`. */
  function EncodeHolder(userId: string): (r: string)
    ensures |r| > 0 && r[0] == '{'
  {
    HolderPrefix + Quote(userId) + "\"}"
  }

  /** Four hex digits as a UTF-16 code unit. */
  function Hex4(s: string): (r: Option<nat>)
    requires |s| == 4
    ensures r.Some? ==> r.value < 0x10000
  {
    match (HexValue(s[0]), HexValue(s[1]), HexValue(s[2]), HexValue(s[3]))
    case (Some(a), Some(b), Some(c), Some(d)) => Some(a * 4096 + b * 256 + c * 16 + d)
    case _ => None
  }

  /** Reads one escape sequence; `s` is the text after the backslash. A
      `\u` escape of a high surrogate half must be followed by the escape of
      a low half, and the pair reads as one character. */
  function ReadEscape(s: string): (r: Option<(char, string)>)
    ensures r.Some? ==> |r.value.1| < |s|
  {
    if |s| == 0 then None
    else if s[0] == '"' then Some(('"', s[1..]))
    else if s[0] == '\\' then Some(('\\', s[1..]))
    else if s[0] == '/' then Some(('/', s[1..]))
    else if s[0] == 'b' then Some(('\U{0008}', s[1..]))
    else if s[0] == 'f' then Some(('\U{000C}', s[1..]))
    else if s[0] == 'n' then Some(('\n', s[1..]))
    else if s[0] == 'r' then Some(('\r', s[1..]))
    else if s[0] == 't' then Some(('\t', s[1..]))
    else if s[0] == 'u' && |s| >= 5 then
      match Hex4(s[1..5])
      case None => None
      case Some(code) =>
        if code < 0xD800 || 0xE000 <= code then Some((code as char, s[5..]))
        else if code < 0xDC00 && |s| >= 11 && s[5] == '\\' && s[6] == 'u' then
          // a high half followed by an escaped low half is one character
          match Hex4(s[7..11])
          case Some(low) =>
            if 0xDC00 <= low < 0xE000 then Some(((0x10000 + (code - 0xD800) * 0x400 + (low - 0xDC00)) as char, s[11..]))
            else None
          case None => None
        else None
    else None
  }

  /** Reads a JSON string literal whose opening quote is already consumed:
      the decoded text and what follows the closing quote. */
  function ReadString(s: string): (r: Option<(string, string)>)
    ensures r.Some? ==> |r.value.1| < |s|
    decreases |s|
  {
    if |s| == 0 then None
    else if s[0] == '"' then Some(("", s[1..]))
    else if s[0] == '\\' then
      match ReadEscape(s[1..])
      case None => None
      case Some((c, rest)) =>
        match ReadString(rest)
        case None => None
        case Some((v, tail)) => Some(([c] + v, tail))
    else if (s[0] as int) < 0x20 then None
    else
      match ReadString(s[1..])
      case None => None
      case Some((v, tail)) => Some(([s[0]] + v, tail))
  }

  /** `JSON.parse(s).userId`, or `None` where `JSON.parse` would throw. */
  function ReadHolder(s: string): (r: Option<string>)
    ensures r.Some? ==> IsPrefix(HolderPrefix, s)
  {
    if IsPrefix(HolderPrefix, s) then
      match ReadString(s[|HolderPrefix|..])
      case Some((v, tail)) => if tail == "}" then Some(v) else None
      case None => None
    else None
  }

  lemma HexRoundTrip(n: nat)
    requires n < 16
    ensures HexValue(HexDigit(n)) == Some(n)
  {
  }

  /** The reader undoes the escape of every character. */
  lemma EscapeRoundTrip(c: char, rest: string)
    ensures |EscapeChar(c)| > 0
    ensures EscapeChar(c)[0] == '\\' ==> ReadEscape(EscapeChar(c)[1..] + rest) == Some((c, rest))
    ensures EscapeChar(c)[0] != '\\' ==> EscapeChar(c) == [c] && c != '"' && (c as int) >= 0x20
  {
    var e := EscapeChar(c);
    if c != '"' && c != '\\' && c != '\U{0008}' && c != '\t' && c != '\n' && c != '\U{000C}' && c != '\r' && (c as int) < 0x20 {
      var hi := c as int / 16;
      var lo := c as int % 16;
      HexRoundTrip(0);
      HexRoundTrip(hi);
      HexRoundTrip(lo);
      var s := e[1..] + rest;
      assert s[0] == 'u' && s[1] == '0' && s[2] == '0' && s[3] == HexDigit(hi) && s[4] == HexDigit(lo);
      assert s[5..] == rest;
      assert (hi * 16 + lo) as char == c;
    } else if c == '"' || c == '\\' || c == '\U{0008}' || c == '\t' || c == '\n' || c == '\U{000C}' || c == '\r' {
      assert (e[1..] + rest)[1..] == rest;
    }
  }

  /** Reading the quoted text of `u` gives `u` back and leaves what followed the closing quote. */
  lemma {:induction false} ReadQuoted(u: string, tail: string)
    ensures ReadString(Quote(u) + "\"" + tail) == Some((u, tail))
    decreases |u|
  {
    if |u| == 0 {
      assert Quote(u) + "\"" + tail == "\"" + tail;
      assert ("\"" + tail)[1..] == tail;
    } else {
      QuoteFirst(u, tail);
      ReadQuoted(u[1..], tail);
      ReadCharThen(u[0], Quote(u[1..]) + "\"" + tail, u[1..], tail);
      assert [u[0]] + u[1..] == u;
    }
  }

  lemma QuoteFirst(u: string, tail: string)
    requires |u| > 0
    ensures Quote(u) + "\"" + tail == EscapeChar(u[0]) + (Quote(u[1..]) + "\"" + tail)
  {
    assert Quote(u) == EscapeChar(u[0]) + Quote(u[1..]);
    ConcatRegroup(EscapeChar(u[0]), Quote(u[1..]), "\"", tail);
  }

  lemma ConcatRegroup(a: string, b: string, c: string, d: string)
    ensures a + b + c + d == a + (b + c + d)
  {
  }

  /** An escaped character followed by a readable string literal reads as one. */
  lemma ReadCharThen(c: char, after: string, v: string, tail: string)
    requires ReadString(after) == Some((v, tail))
    ensures ReadString(EscapeChar(c) + after) == Some(([c] + v, tail))
  {
    var e := EscapeChar(c);
    var s := e + after;
    EscapeRoundTrip(c, after);
    if e[0] == '\\' {
      assert s[0] == '\\' && s[1..] == e[1..] + after;
      ReadEscapedStep(s, c, after, v, tail);
    } else {
      ReadPlainStep(s, c, after, v, tail);
    }
  }

  lemma ReadEscapedStep(s: string, c: char, after: string, v: string, tail: string)
    requires |s| > 0 && s[0] == '\\'
    requires ReadEscape(s[1..]) == Some((c, after))
    requires ReadString(after) == Some((v, tail))
    ensures ReadString(s) == Some(([c] + v, tail))
  {
  }

  lemma ReadPlainStep(s: string, c: char, after: string, v: string, tail: string)
    requires s == [c] + after && c != '"' && c != '\\' && (c as int) >= 0x20
    requires ReadString(after) == Some((v, tail))
    ensures ReadString(s) == Some(([c] + v, tail))
  {
    assert s[1..] == after;
  }

  /** An escaped surrogate pair reads as the one character it encodes, as
      `JSON.parse` reads it; a high half escaped alone is a syntax error. */
  lemma ReadSurrogatePair()
    ensures ReadHolder("{\"userId\":\"\\ud83d\\ude00\"}") == Some("\U{1F600}")
    ensures ReadHolder("{\"userId\":\"\\ud83d\"}").None?
  {
    var pair := "\\ud83d\\ude00\"}";
    assert pair[0] == '\\' && pair[1..] == "ud83d\\ude00\"}";
    var e := "ud83d\\ude00\"}";
    assert e[1..5] == "d83d" && Hex4("d83d") == Some(0xD83D);
    assert e[5] == '\\' && e[6] == 'u' && |e| >= 11;
    assert e[7..11] == "de00" && Hex4("de00") == Some(0xDE00);
    assert e[11..] == "\"}";
    assert 0x10000 + (0xD83D - 0xD800) * 0x400 + (0xDE00 - 0xDC00) == 0x1F600;
    assert ReadEscape(e) == Some(('\U{1F600}', "\"}"));
    assert ReadString("\"}") == Some(("", "}"));
    assert ['\U{1F600}'] + "" == "\U{1F600}";
    ReadEscapedStep(pair, '\U{1F600}', "\"}", "", "}");
    assert "{\"userId\":\"\\ud83d\\ude00\"}"[|HolderPrefix|..] == pair;
    var lone := "\\ud83d\"}";
    assert ReadEscape("ud83d\"}").None?;
    assert ReadString(lone).None?;
    assert "{\"userId\":\"\\ud83d\"}"[|HolderPrefix|..] == lone;
  }

  /** Round trip of the encoding the socket handlers write. */
  lemma ReadEncodedHolder(u: string)
    ensures ReadHolder(EncodeHolder(u)) == Some(u)
  {
    var s := EncodeHolder(u);
    assert s[..|HolderPrefix|] == HolderPrefix;
    assert s[|HolderPrefix|..] == Quote(u) + "\"" + "}";
    ReadQuoted(u, "}");
  }

  /** Distinct holders are encoded as distinct lock values. */
  lemma EncodeHolderInjective(u: string, v: string)
    ensures EncodeHolder(u) == EncodeHolder(v) ==> u == v
  {
    ReadEncodedHolder(u);
    ReadEncodedHolder(v);
  }
}

=== FILE: lock_manager.dfy ===
/** The lock helper API: locks stored as the raw user id under `file-lock:<path>`. */
module LockManager {
  import opened Wrappers
  import opened Store
  import opened Keys

  /** `lockFile`: set-if-absent of the raw user id with a 300-unit time-to-live;
      the result says whether the lock was taken. */
  function LockFile(st: Store, path: string, userId: string): (r: (bool, Store))
    ensures r.0 <==> Get(st, LockKey(path)).None?
    ensures r.0 ==> Get(r.1, LockKey(path)) == Some(userId)
    ensures r.0 ==> Deadline(r.1, LockKey(path)) == Some(st.now + LockTtl)
    ensures r.0 ==> r.1.sets == st.sets && r.1.strings - {LockKey(path)} == st.strings - {LockKey(path)}
    ensures !r.0 ==> r.1 == st
  {
    SetNx(st, LockKey(path), userId, LockTtl)
  }

  /** `unlockFile`: deletes the lock only when its value is exactly `userId`. */
  function UnlockFile(st: Store, path: string, userId: string): (r: Store)
    ensures Get(st, LockKey(path)) == Some(userId) ==> Get(r, LockKey(path)).None?
    ensures r.sets == st.sets && r.strings - {LockKey(path)} == st.strings - {LockKey(path)}
    ensures Get(st, LockKey(path)) != Some(userId) ==> r == st
  {
    if Get(st, LockKey(path)) == Some(userId) then Del(st, LockKey(path)) else st
  }

  /** `getFileLock`: the stored value, or null; the store is only read. */
  function GetFileLock(st: Store, path: string): (r: Option<string>)
    ensures r.Some? <==> LockKey(path) in StringKeys(st, LockPrefix)
    ensures r.Some? ==> r.value == st.strings[LockKey(path)].value
  {
    Get(st, LockKey(path))
  }

  /** Locking then unlocking as the same user leaves the path unlocked and every other key as it was. */
  lemma LockThenUnlock(st: Store, path: string, userId: string)
    requires GetFileLock(st, path).None?
    ensures var (ok, s1) := LockFile(st, path, userId);
      ok && GetFileLock(s1, path) == Some(userId)
      && var s2 := UnlockFile(s1, path, userId);
      GetFileLock(s2, path).None? && s2.sets == st.sets
      && s2.strings - {LockKey(path)} == st.strings - {LockKey(path)}
  {
  }

  /** A second `lockFile` on a held path fails whoever asks, and an `unlockFile`
      by anyone but the holder changes nothing. */
  lemma HeldLockResists(st: Store, path: string, holder: string, other: string)
    requires GetFileLock(st, path) == Some(holder) && other != holder
    ensures LockFile(st, path, other) == (false, st)
    ensures UnlockFile(st, path, other) == st
  {
  }
}

=== FILE: project_access.dfy ===
/** The route guard in front of the project endpoints: only the owner and
    the members of a project get through. */
module ProjectAccess {
  import opened Wrappers
  import opened ProjectService
  import opened ProjectController

  datatype Decision = Deny(reply: Reply) | Next

  /** The caller owns the project or is among its members. */
  predicate MayAccess(p: Project, userId: string) {
    p.owner == userId || userId in p.members
  }

  /** `checkProjectAccess`: 404 for an unknown project, 403 for a caller who
      is neither owner nor member; otherwise the request proceeds. `lookupOk`
      is whether the project lookup succeeds; a failing lookup is a 500. */
  function CheckProjectAccess(projects: map<string, Project>, userId: string, projectId: string, lookupOk: bool): (r: Decision)
    ensures r.Next? <==> lookupOk && projectId in projects && MayAccess(projects[projectId], userId)
    ensures lookupOk && projectId !in projects ==> r == Deny(Reply(404, "Project not found"))
    ensures r == Deny(Reply(403, "Access denied")) <==>
      lookupOk && projectId in projects && !MayAccess(projects[projectId], userId)
    ensures !lookupOk ==> r == Deny(Reply(500, "Server error"))
  {
    if !lookupOk then Deny(Reply(500, "Server error"))
    else if projectId !in projects then Deny(Reply(404, "Project not found"))
    else
      var p := projects[projectId];
      if p.owner != userId && userId !in p.members then Deny(Reply(403, "Access denied"))
      else Next
  }

  /** A newly created project admits its creator, and nobody else until they join. */
  lemma CreatorHasAccess(db: Db, userId: string, title: Option<string>, kind: Option<string>,
                         newId: string, exec: ExecOutcome, upload: Result<string>, other: string)
    requires CreateProject(db, userId, title, kind, newId, exec, upload).reply.status == 200
    requires other != userId
    ensures var after := CreateProject(db, userId, title, kind, newId, exec, upload).db;
      CheckProjectAccess(after.projects, userId, newId, true) == Next
      && CheckProjectAccess(after.projects, other, newId, true) == Deny(Reply(403, "Access denied"))
  {
  }

  /** The owner keeps access even when absent from the members list. */
  lemma OwnerAlwaysAdmitted(projects: map<string, Project>, projectId: string)
    requires projectId in projects
    ensures CheckProjectAccess(projects, projects[projectId].owner, projectId, true) == Next
  {
  }

  /** A successful join grants access; a successful leave by a non-owner
      revokes it, however many times the caller appeared in the members. */
  lemma JoinGrantsLeaveRevokes(db: Db, userId: string, projectId: string)
    requires projectId in db.projects
    ensures JoinProject(db, userId, projectId, true).reply.status == 200 ==>
      CheckProjectAccess(JoinProject(db, userId, projectId, true).db.projects, userId, projectId, true) == Next
    ensures LeaveProject(db, userId, projectId, true).reply.status == 200 ==>
      CheckProjectAccess(LeaveProject(db, userId, projectId, true).db.projects, userId, projectId, true)
        == Deny(Reply(403, "Access denied"))
  {
  }
}

=== FILE: project_controller.dfy ===
/** The project controller's membership and ownership rules: creating a
    project, joining and leaving one, and deleting it.

    The project collection is a map from project id to record. A response is
    its status and message (for the 500 of `createProject` the message is the
    body's `error` field). Archive and upload steps, and the storage removal
    on deletion, are collapsed into parameters giving their outcome. */
module ProjectController {
  import opened Wrappers
  import opened ProjectService

  datatype Project = Project(owner: string, title: string, kind: string, downloadUrl: string, members: seq<string>)

  datatype Reply = Reply(status: nat, message: string)

  /** The state a controller call acts on: projects and project directories. */
  datatype Db = Db(projects: map<string, Project>, dirs: set<string>)

  datatype Answer = Answer(reply: Reply, db: Db)

  /** `members.filter(id => id !== userId)`. */
  function Without(s: seq<string>, x: string): (r: seq<string>)
    ensures forall y :: y in r <==> y in s && y != x
    ensures x !in s ==> r == s
    ensures |r| <= |s|
    decreases |s|
  {
    if |s| == 0 then []
    else if s[0] == x then Without(s[1..], x)
    else [s[0]] + Without(s[1..], x)
  }

  /** Filtering keeps the order of the remaining members: it distributes over concatenation. */
  lemma {:induction false} WithoutAppend(a: seq<string>, b: seq<string>, x: string)
    ensures Without(a + b, x) == Without(a, x) + Without(b, x)
    decreases |a|
  {
    if |a| == 0 {
      assert a + b == b;
    } else {
      var c := a + b;
      assert c[0] == a[0] && c[1..] == a[1..] + b;
      WithoutAppend(a[1..], b, x);
      if a[0] != x {
        assert Without(c, x) == [a[0]] + Without(c[1..], x);
      }
    }
  }

  /** Filtering keeps each other member's number of occurrences. */
  lemma {:induction false} WithoutCounts(s: seq<string>, x: string)
    ensures multiset(Without(s, x))[x] == 0
    ensures forall y :: y != x ==> multiset(Without(s, x))[y] == multiset(s)[y]
    decreases |s|
  {
    if |s| > 0 {
      WithoutCounts(s[1..], x);
      assert s == [s[0]] + s[1..];
    }
  }

  /** The text a missing `type` becomes in a template string. */
  function KindText(kind: Option<string>): string {
    kind.GetOr("undefined")
  }

  /** `createProject`: 400 without a title (or user id); otherwise scaffold
      the directory, run the archive, upload and record-creation steps
      (`upload`: the download URL, or the message of the step that threw),
      and store the project with its creator as owner and sole member. Any
      thrown error becomes a 500 carrying its message, or a fixed text when
      the message is empty. */
  function CreateProject(db: Db, userId: string, title: Option<string>, kind: Option<string>,
                         newId: string, exec: ExecOutcome, upload: Result<string>): (r: Answer)
    ensures userId == "" || !Truthy(title) <==> r.reply == Reply(400, "Missing title or userId")
    ensures r.reply.status == 400 ==> r.db == db
    ensures r.reply.status == 200 <==>
      userId != "" && Truthy(title) && upload.Ok?
      && CreateProjectService(db.dirs, KindText(kind), newId, exec).result.Ok?
    ensures r.reply.status == 200 ==>
      && upload.Ok? && title.Some?
      && r.reply.message == "Project created successfully"
      && r.db.projects == db.projects[newId := Project(userId, title.value, KindText(kind), upload.value, [userId])]
      && newId in r.db.dirs
    ensures r.reply.status == 500 ==>
      r.db.projects == db.projects && r.reply.message != ""
    ensures r.reply.status in {200, 400, 500}
  {
    if userId == "" || !Truthy(title) then Answer(Reply(400, "Missing title or userId"), db)
    else
      var made := CreateProjectService(db.dirs, KindText(kind), newId, exec);
      var db1 := db.(dirs := made.dirs);
      match made.result
      case Err(message) => Answer(Reply(500, ErrorText(message)), db1)
      case Ok(projectId) =>
        match upload
        case Err(message) => Answer(Reply(500, ErrorText(message)), db1)
        case Ok(url) =>
          var p := Project(userId, title.value, KindText(kind), url, [userId]);
          Answer(Reply(200, "Project created successfully"), db1.(projects := db.projects[projectId := p]))
  }

  /** `err.message || "Failed to create project directory"`. */
  function ErrorText(message: string): (r: string)
    ensures r != ""
    ensures message != "" ==> r == message
    ensures message == "" ==> r == "Failed to create project directory"
  {
    if message == "" then "Failed to create project directory" else message
  }

  /** `joinProject`: 404 for an unknown project, 400 for a current member;
      otherwise the caller is appended. `saved` is whether the save succeeds
      (a failing save is the 500 of the catch, and nothing is stored). */
  function JoinProject(db: Db, userId: string, projectId: string, saved: bool): (r: Answer)
    ensures projectId !in db.projects <==> r.reply == Reply(404, "Project not found")
    ensures projectId in db.projects && userId in db.projects[projectId].members
      ==> r.reply == Reply(400, "You're already a collaborator")
    ensures r.reply.status != 200 ==> r.db == db
    ensures r.reply.status == 200 <==>
      projectId in db.projects && userId !in db.projects[projectId].members && saved
    ensures r.reply.status == 200 ==>
      && r.db.dirs == db.dirs
      && r.db.projects.Keys == db.projects.Keys
      && (forall q :: q in db.projects && q != projectId ==> r.db.projects[q] == db.projects[q])
      && r.db.projects[projectId] == db.projects[projectId].(members := db.projects[projectId].members + [userId])
  {
    if projectId !in db.projects then Answer(Reply(404, "Project not found"), db)
    else
      var p := db.projects[projectId];
      if userId in p.members then Answer(Reply(400, "You're already a collaborator"), db)
      else if !saved then Answer(Reply(500, "Internal server error"), db)
      else
        Answer(Reply(200, "Joined project successfully"),
               db.(projects := db.projects[projectId := p.(members := p.members + [userId])]))
  }

  /** `leaveProject`: 404 for an unknown project, 400 for its owner;
      otherwise every occurrence of the caller is filtered out of the members. */
  function LeaveProject(db: Db, userId: string, projectId: string, saved: bool): (r: Answer)
    ensures projectId !in db.projects <==> r.reply == Reply(404, "Project not found")
    ensures projectId in db.projects && db.projects[projectId].owner == userId
      <==> r.reply == Reply(400, "You cannot leave your own project")
    ensures r.reply.status != 200 ==> r.db == db
    ensures r.reply.status == 200 <==>
      projectId in db.projects && db.projects[projectId].owner != userId && saved
    ensures r.reply.status == 200 ==>
      && r.db.dirs == db.dirs
      && r.db.projects.Keys == db.projects.Keys
      && (forall q :: q in db.projects && q != projectId ==> r.db.projects[q] == db.projects[q])
      && r.db.projects[projectId].owner == db.projects[projectId].owner
      && (forall y :: y in r.db.projects[projectId].members <==> y in db.projects[projectId].members && y != userId)
      && r.db.projects[projectId] == db.projects[projectId].(members := Without(db.projects[projectId].members, userId))
  {
    if projectId !in db.projects then Answer(Reply(404, "Project not found"), db)
    else
      var p := db.projects[projectId];
      if p.owner == userId then Answer(Reply(400, "You cannot leave your own project"), db)
      else if !saved then Answer(Reply(500, "Internal server error"), db)
      else
        Answer(Reply(200, "Left project successfully"),
               db.(projects := db.projects[projectId := p.(members := Without(p.members, userId))]))
  }

  /** `deleteProject`: 400 without ids; the same 404 for a missing project and
      for a caller who does not own it; 500 when the stored archive cannot be
      removed; otherwise the record and the directory go. */
  function DeleteProject(db: Db, userId: string, projectId: string, storageOk: bool, removeOk: bool): (r: Answer)
    ensures userId == "" || projectId == "" <==> r.reply == Reply(400, "Missing projectId or userId")
    ensures userId != "" && projectId != "" ==>
      (r.reply == Reply(404, "Project not found or unauthorized") <==>
         projectId !in db.projects || db.projects[projectId].owner != userId)
    ensures r.reply.status != 200 ==> r.db == db
    ensures r.reply.status == 200 <==>
      userId != "" && projectId != "" && projectId in db.projects && db.projects[projectId].owner == userId && storageOk
    ensures r.reply.status == 200 ==>
      r.db.projects == db.projects - {projectId} && r.db.dirs <= db.dirs && db.dirs - r.db.dirs <= {projectId}
  {
    if userId == "" || projectId == "" then Answer(Reply(400, "Missing projectId or userId"), db)
    else if projectId !in db.projects || db.projects[projectId].owner != userId then
      Answer(Reply(404, "Project not found or unauthorized"), db)
    else if !storageOk then Answer(Reply(500, "Failed to delete project zip from cloud"), db)
    else
      Answer(Reply(200, "Project deleted successfully"),
             Db(db.projects - {projectId}, DeleteProjectService(db.dirs, projectId, removeOk)))
  }

  /** A non-owner's 404 from `deleteProject` is indistinguishable from the
      404 for a project that does not exist. */
  lemma DeleteHidesExistence(db: Db, userId: string, projectId: string, other: string, storageOk: bool, removeOk: bool)
    requires userId != "" && projectId != "" && other != ""
    requires projectId in db.projects && db.projects[projectId].owner != userId
    requires other !in db.projects
    ensures DeleteProject(db, userId, projectId, storageOk, removeOk).reply
         == DeleteProject(db, userId, other, storageOk, removeOk).reply
  {
  }

  /** Joining and then leaving as a non-owner restores the member list. */
  lemma JoinThenLeave(db: Db, userId: string, projectId: string)
    requires projectId in db.projects
    requires userId !in db.projects[projectId].members && db.projects[projectId].owner != userId
    ensures var joined := JoinProject(db, userId, projectId, true);
      && joined.reply.status == 200
      && LeaveProject(joined.db, userId, projectId, true).db == db
  {
    var p := db.projects[projectId];
    WithoutAppend(p.members, [userId], userId);
    var joined := JoinProject(db, userId, projectId, true);
    assert joined.db.projects[projectId].members == p.members + [userId];
    assert Without([userId], userId) == [];
    assert Without(p.members + [userId], userId) == p.members;
    var left := LeaveProject(joined.db, userId, projectId, true);
    assert left.db.projects[projectId] == p;
    assert left.db.projects == db.projects;
  }
}

=== FILE: project_service.dfy ===
/** The project service: scaffolding a new project directory with the
    framework's generator command, and removing a project directory.

    The filesystem is abstracted to the set of project directories, keyed by
    project id. The fresh id (`uuid4`), the generator command's outcome and
    the directory listing after it are parameters. Recursive removal with
    `force` is taken to succeed in the creation path; its own failure is only
    logged there. */
module ProjectService {
  import opened Wrappers

  datatype Framework = React | Vue | NextJs | Angular

  /** What the generator run leaves: it threw with a message, or it finished
      and the directory then holds `entries` entries. */
  datatype ExecOutcome = ExecFailed(message: string) | ExecDone(entries: nat)

  /** The directories after the call, and the project id or the thrown message. */
  datatype Created = Created(dirs: set<string>, result: Result<string>)

  /** The `switch` on the framework name; names are case-sensitive. */
  function FrameworkOf(kind: string): (r: Option<Framework>)
    ensures r == Some(React) <==> kind == "React"
    ensures r == Some(Vue) <==> kind == "Vue"
    ensures r == Some(NextJs) <==> kind == "NextJs"
    ensures r == Some(Angular) <==> kind == "Angular"
  {
    match kind
    case "React" => Some(React)
    case "Vue" => Some(Vue)
    case "NextJs" => Some(NextJs)
    case "Angular" => Some(Angular)
    case _ => None
  }

  /** `createProjectService`: make the directory, pick the command, run it,
      and check the directory is not empty. An unsupported name throws
      before the `try`, so its directory stays; a failing or empty run
      removes the directory and rethrows. */
  function CreateProjectService(dirs: set<string>, kind: string, newId: string, exec: ExecOutcome): (r: Created)
    ensures FrameworkOf(kind).None? ==>
      r == Created(dirs + {newId}, Err("Unsupported framework type: " + kind))
    ensures FrameworkOf(kind).Some? && exec.ExecFailed? ==>
      r == Created(dirs - {newId}, Err(exec.message))
    ensures FrameworkOf(kind).Some? && exec == ExecDone(0) ==>
      r == Created(dirs - {newId}, Err("Project creation resulted in empty directory"))
    ensures r.result.Ok? <==> FrameworkOf(kind).Some? && exec.ExecDone? && exec.entries > 0
    ensures r.result.Ok? ==> r == Created(dirs + {newId}, Ok(newId))
  {
    var made := dirs + {newId};
    match FrameworkOf(kind)
    case None => Created(made, Err("Unsupported framework type: " + kind))
    case Some(_) =>
      match exec
      case ExecFailed(message) => Created(made - {newId}, Err(message))
      case ExecDone(entries) =>
        if entries == 0 then Created(made - {newId}, Err("Project creation resulted in empty directory"))
        else Created(made, Ok(newId))
  }

  /** `deleteProjectService`: remove the directory if it is there. A missing
      directory, or a removal that fails, is only logged: the call never throws. */
  function DeleteProjectService(dirs: set<string>, projectId: string, removeOk: bool): (r: set<string>)
    ensures r <= dirs && dirs - r <= {projectId}
    ensures removeOk ==> projectId !in r
  {
    if projectId in dirs && removeOk then dirs - {projectId} else dirs
  }

  /** With a fresh id, any failing creation other than an unsupported framework
      leaves the directories as they were, and an unsupported framework leaves
      exactly the new directory behind. */
  lemma FailedCreateCleansUp(dirs: set<string>, kind: string, newId: string, exec: ExecOutcome)
    requires newId !in dirs
    ensures var r := CreateProjectService(dirs, kind, newId, exec);
      && (r.result.Err? && FrameworkOf(kind).Some? ==> r.dirs == dirs)
      && (FrameworkOf(kind).None? ==> r.dirs - dirs == {newId})
  {
  }

  /** Creating a project and then deleting it restores the directories. */
  lemma CreateThenDelete(dirs: set<string>, kind: string, newId: string, entries: nat)
    requires newId !in dirs && FrameworkOf(kind).Some? && entries > 0
    ensures var r := CreateProjectService(dirs, kind, newId, ExecDone(entries));
      r.result == Ok(newId) && DeleteProjectService(r.dirs, newId, true) == dirs
  {
  }
}

=== FILE: store.dfy ===
/** The shared key/value store (Redis) as an immutable value with a logical clock.

    String keys carry an expiry deadline; a string is visible only while the
    clock is strictly before its deadline, which is how `SET ... EX ttl`
    behaves. Set keys never expire, and removing the last member of a set
    deletes the key, as in Redis. Strings and sets are kept in two maps: the
    modelled code never uses one key for both kinds (`file-lock:` keys are
    strings, `project-users:` and `file-users:` keys are sets). */
module Store {
  import opened Wrappers
  import opened Text

  datatype Timed = Timed(value: string, deadline: int)

  datatype Store = Store(now: int, strings: map<string, Timed>, sets: map<string, set<string>>)

  /** The string at `key` has not expired. */
  predicate Live(st: Store, key: string) {
    key in st.strings && st.now < st.strings[key].deadline
  }

  /** `GET key`: the live value, or null. */
  function Get(st: Store, key: string): Option<string> {
    if Live(st, key) then Some(st.strings[key].value) else None
  }

  /** The deadline of a live string. */
  function Deadline(st: Store, key: string): Option<int> {
    if Live(st, key) then Some(st.strings[key].deadline) else None
  }

  /** `SET key value EX ttl`: overwrites whatever is there. */
  function SetEx(st: Store, key: string, value: string, ttl: nat): (r: Store)
    ensures Get(r, key) == Some(value) || ttl == 0
    ensures Deadline(r, key) == (if ttl > 0 then Some(st.now + ttl) else None)
    ensures r.now == st.now && r.sets == st.sets && r.strings - {key} == st.strings - {key}
  {
    st.(strings := st.strings[key := Timed(value, st.now + ttl)])
  }

  /** `SET key value NX EX ttl`: writes only when no live value exists, and reports whether it wrote. */
  function SetNx(st: Store, key: string, value: string, ttl: nat): (r: (bool, Store))
    ensures r.0 <==> Get(st, key).None?
    ensures r.0 ==> (Get(r.1, key) == Some(value) || ttl == 0)
    ensures r.0 ==> Deadline(r.1, key) == (if ttl > 0 then Some(st.now + ttl) else None)
    ensures r.0 ==> r.1.now == st.now && r.1.sets == st.sets && r.1.strings - {key} == st.strings - {key}
    ensures !r.0 ==> r.1 == st
  {
    if Live(st, key) then (false, st) else (true, SetEx(st, key, value, ttl))
  }

  /** `DEL key` on a string key. */
  function Del(st: Store, key: string): (r: Store)
    ensures Get(r, key).None?
    ensures r.now == st.now && r.sets == st.sets && r.strings - {key} == st.strings - {key}
  {
    st.(strings := st.strings - {key})
  }

  /** Every stored set has a member: Redis never keeps an empty set. */
  predicate NoEmptySets(st: Store) {
    forall k :: k in st.sets ==> st.sets[k] != {}
  }

  /** `SMEMBERS key`: a missing key reads as the empty set. */
  function Members(st: Store, key: string): set<string> {
    if key in st.sets then st.sets[key] else {}
  }

  /** `SADD key m`. */
  function SAdd(st: Store, key: string, m: string): (r: Store)
    ensures Members(r, key) == Members(st, key) + {m}
    ensures r.now == st.now && r.strings == st.strings && r.sets - {key} == st.sets - {key}
    ensures NoEmptySets(st) ==> NoEmptySets(r)
  {
    st.(sets := st.sets[key := Members(st, key) + {m}])
  }

  /** `SREM key m`; the key disappears with its last member. */
  function SRem(st: Store, key: string, m: string): (r: Store)
    ensures Members(r, key) == Members(st, key) - {m}
    ensures forall k :: k != key ==> Members(r, k) == Members(st, k)
    ensures r.now == st.now && r.strings == st.strings && r.sets - {key} == st.sets - {key}
    ensures r.sets.Keys <= st.sets.Keys
    ensures key in r.sets ==> r.sets[key] != {}
    ensures NoEmptySets(st) ==> NoEmptySets(r)
    ensures NoEmptySets(st) && m !in Members(st, key) ==> r == st
  {
    if key !in st.sets then st
    else
      var rest := st.sets[key] - {m};
      if rest == {} then st.(sets := st.sets - {key})
      else
        assert m !in st.sets[key] ==> rest == st.sets[key] && st.sets[key := rest] == st.sets;
        st.(sets := st.sets[key := rest])
  }

  /** `KEYS prefix*` over the live strings (prefix matching only). */
  function StringKeys(st: Store, prefix: string): set<string> {
    set k | k in st.strings && IsPrefix(prefix, k) && Live(st, k)
  }

  /** `KEYS prefix*` over the sets. */
  function SetKeys(st: Store, prefix: string): set<string> {
    set k | k in st.sets && IsPrefix(prefix, k)
  }

  /** A `KEYS` reply: a sequence holding exactly the keys of `expected`, in the order the store chose. */
  predicate IsKeysReply(keys: seq<string>, expected: set<string>) {
    && (forall i :: 0 <= i < |keys| ==> keys[i] in expected)
    && (forall k :: k in expected ==> k in keys)
  }

  /** The logical clock moves forward; nothing is rewritten, expired strings just stop being visible. */
  function Advance(st: Store, d: nat): (r: Store)
    ensures r.now == st.now + d
    ensures forall k :: Get(r, k).Some? ==> Get(st, k) == Get(r, k)
  {
    st.(now := st.now + d)
  }

  /** A string written with time-to-live `ttl` is gone once `ttl` units have passed. */
  lemma ExpiresAfterTtl(st: Store, key: string, value: string, ttl: nat, d: nat)
    requires d >= ttl
    ensures Get(Advance(SetEx(st, key, value, ttl), d), key).None?
    ensures ttl > 0 ==> Get(SetEx(st, key, value, ttl), key) == Some(value)
  {
  }
}

=== FILE: text.dfy ===
/** String operations of the JavaScript runtime that the modelled code relies on:
    `split` / `join` on one separator, `startsWith`, `replace` of the first
    occurrence, `trim`, `toLowerCase` and `.length`. */
module Text {

  predicate IsPrefix(p: string, s: string) {
    |p| <= |s| && s[..|p|] == p
  }

  /** `s.split(sep)` for a one-character separator: always at least one part,
      empty parts kept (`"a::b"` gives `["a", "", "b"]`). */
  function Split(s: string, sep: char): (parts: seq<string>)
    ensures |parts| >= 1
    ensures forall i :: 0 <= i < |parts| ==> sep !in parts[i]
    decreases |s|
  {
    if |s| == 0 then [""]
    else
      var rest := Split(s[1..], sep);
      if s[0] == sep then [""] + rest
      else [[s[0]] + rest[0]] + rest[1..]
  }

  /** `parts.join(sep)`; the join of no parts is the empty string. */
  function Join(parts: seq<string>, sep: char): string
    decreases |parts|
  {
    if |parts| == 0 then ""
    else if |parts| == 1 then parts[0]
    else parts[0] + [sep] + Join(parts[1..], sep)
  }

  /** Joining the parts of a split gives the string back. */
  lemma {:induction false} JoinSplit(s: string, sep: char)
    ensures Join(Split(s, sep), sep) == s
    decreases |s|
  {
    if |s| > 0 {
      JoinSplit(s[1..], sep);
      var rest := Split(s[1..], sep);
      if s[0] == sep {
        assert s == [sep] + s[1..];
      } else {
        if |rest| == 1 {
          assert Join(rest, sep) == rest[0];
        } else {
          assert Join(rest, sep) == rest[0] + [sep] + Join(rest[1..], sep);
          assert [[s[0]] + rest[0]] + rest[1..] == [[s[0]] + rest[0]] + rest[1..];
        }
        assert s == [s[0]] + s[1..];
      }
    }
  }

  /** Splitting `a + sep + b`, where `a` holds no separator, yields `a` followed by the parts of `b`. */
  lemma {:induction false} SplitAtFirst(a: string, b: string, sep: char)
    requires sep !in a
    ensures Split(a + [sep] + b, sep) == [a] + Split(b, sep)
    decreases |a|
  {
    if |a| == 0 {
      assert a + [sep] + b == [sep] + b;
      assert ([sep] + b)[1..] == b;
    } else {
      SplitAtFirst(a[1..], b, sep);
      assert (a + [sep] + b)[1..] == a[1..] + [sep] + b;
      assert [a[0]] + a[1..] == a;
    }
  }

  /** `pat` occurs in `s` starting at index `j`. */
  predicate OccursAt(s: string, pat: string, j: int) {
    0 <= j && |pat| <= |s| - j && s[j..j + |pat|] == pat
  }

  /** Index of the first occurrence of `pat` in `s`, or `|s|` when there is none. */
  function FindFirst(s: string, pat: string): (r: nat)
    ensures r <= |s|
    ensures r < |s| ==> OccursAt(s, pat, r)
    ensures forall j :: 0 <= j < r ==> !OccursAt(s, pat, j)
    decreases |s|
  {
    if |s| == 0 then 0
    else if OccursAt(s, pat, 0) then 0
    else
      var k := FindFirst(s[1..], pat);
      assert forall j :: 1 <= j ==> (OccursAt(s, pat, j) <==> OccursAt(s[1..], pat, j - 1));
      1 + k
  }

  /** `s.replace(pat, "")` with a string pattern: removes the first occurrence only. */
  function RemoveFirst(s: string, pat: string): string {
    var i := FindFirst(s, pat);
    if i < |s| then s[..i] + s[i + |pat|..] else s
  }

  /** When `s` starts with a non-empty `pat`, removing the first occurrence strips that prefix. */
  lemma RemoveFirstOfPrefix(s: string, pat: string)
    requires |pat| > 0 && IsPrefix(pat, s)
    ensures RemoveFirst(s, pat) == s[|pat|..]
  {
    assert OccursAt(s, pat, 0);
  }

  predicate IsSubstring(needle: string, hay: string) {
    exists i | 0 <= i <= |hay| :: OccursAt(hay, needle, i)
  }

  /** Characters JavaScript's `String.prototype.trim` removes: white space and line terminators. */
  predicate IsJsSpace(c: char) {
    c == '\t' || c == '\n' || c == '\U{000B}' || c == '\U{000C}' || c == '\r' || c == ' '
    || c == '\U{00A0}' || c == '\U{1680}' || ('\U{2000}' <= c <= '\U{200A}')
    || c == '\U{2028}' || c == '\U{2029}' || c == '\U{202F}' || c == '\U{205F}'
    || c == '\U{3000}' || c == '\U{FEFF}'
  }

  function TrimStart(s: string): (r: string)
    ensures |r| <= |s| && r == s[|s| - |r|..]
    ensures |r| > 0 ==> !IsJsSpace(r[0])
    ensures forall i :: 0 <= i < |s| - |r| ==> IsJsSpace(s[i])
    decreases |s|
  {
    if |s| > 0 && IsJsSpace(s[0]) then TrimStart(s[1..]) else s
  }

  function TrimEnd(s: string): (r: string)
    ensures |r| <= |s| && r == s[..|r|]
    ensures |r| > 0 ==> !IsJsSpace(r[|r| - 1])
    ensures forall i :: |r| <= i < |s| ==> IsJsSpace(s[i])
    decreases |s|
  {
    if |s| > 0 && IsJsSpace(s[|s| - 1]) then TrimEnd(s[..|s| - 1]) else s
  }

  /** `s.trim()`: the longest infix of `s` that neither starts nor ends with white space. */
  function Trim(s: string): (r: string)
    ensures |r| > 0 ==> !IsJsSpace(r[0]) && !IsJsSpace(r[|r| - 1])
  {
    TrimEnd(TrimStart(s))
  }

  /** Trimming twice is trimming once. */
  lemma TrimIdempotent(s: string)
    ensures Trim(Trim(s)) == Trim(s)
  {
    var t := Trim(s);
    if |t| > 0 {
      assert TrimStart(t) == t;
      assert TrimEnd(t) == t;
    }
  }

  /** `toLowerCase` restricted to the ASCII letters; other characters are unchanged. */
  function LowerChar(c: char): char {
    if 'A' <= c <= 'Z' then (c as int + 32) as char else c
  }

  function Lower(s: string): (r: string)
    ensures |r| == |s|
    ensures forall i :: 0 <= i < |s| ==> r[i] == LowerChar(s[i])
  {
    seq(|s|, i requires 0 <= i < |s| => LowerChar(s[i]))
  }

  lemma LowerIdempotent(s: string)
    ensures Lower(Lower(s)) == Lower(s)
  {
  }

  /** No character of `s` changes under `toLowerCase`. */
  predicate IsLowerCase(s: string) {
    forall i :: 0 <= i < |s| ==> LowerChar(s[i]) == s[i]
  }

  lemma LowerOfLowerCase(s: string)
    requires IsLowerCase(s)
    ensures Lower(s) == s
  {
  }

  lemma TrimKeepsLowerCase(t: string)
    requires IsLowerCase(t)
    ensures IsLowerCase(Trim(t))
  {
    var u := TrimStart(t);
    assert u == t[|t| - |u|..];
    assert IsLowerCase(u);
    var v := TrimEnd(u);
    assert v == u[..|v|];
  }

  /** Trimming a lower-cased string leaves it lower-cased, so the schema's
      `lowercase` setter changes nothing after `toLowerCase().trim()`. */
  lemma LowerTrimLower(s: string)
    ensures Lower(Trim(Lower(s))) == Trim(Lower(s))
  {
    assert IsLowerCase(Lower(s));
    TrimKeepsLowerCase(Lower(s));
    LowerOfLowerCase(Trim(Lower(s)));
  }

  /** JavaScript's `.length`: UTF-16 code units, so a character outside the
      Basic Multilingual Plane counts twice. */
  function Utf16Length(s: string): (n: nat)
    ensures |s| <= n <= 2 * |s|
  {
    if |s| == 0 then 0
    else (if s[0] as int > 0xFFFF then 2 else 1) + Utf16Length(s[1..])
  }
}

=== FILE: user_model.dfy ===
/** The user schema: its setters, its validators in schema order, and the
    credential lookup.

    The email pattern and password hashing are library calls and appear as
    function parameters (`isEmail`, `matches`). Lengths are JavaScript
    lengths (UTF-16 code units). Query filters get the schema's setters, as
    they do for string paths, so an email filter is lower-cased. */
module UserModel {
  import opened Wrappers
  import opened Text

  /** The fields handed to the constructor; an absent field is `undefined`. */
  datatype UserInput = UserInput(username: Option<string>, email: Option<string>, password: Option<string>,
                                 avatarUrl: Option<string>)

  /** A stored user. */
  datatype UserRecord = UserRecord(id: string, username: string, email: string, password: string, avatarUrl: string)

  /** The schema's setters: `trim` on the username, `lowercase` on the email,
      and the empty default for a missing avatar. */
  function Normalize(input: UserInput): (r: UserInput)
    ensures r.username.Some? <==> input.username.Some?
    ensures r.email.Some? <==> input.email.Some?
    ensures r.password == input.password
    ensures input.username.Some? ==> r.username == Some(Trim(input.username.value))
    ensures input.email.Some? ==> r.email == Some(Lower(input.email.value)) && IsLowerCase(r.email.value)
    ensures r.avatarUrl.Some?
    ensures r.avatarUrl.value == if input.avatarUrl.Some? then input.avatarUrl.value else ""
  {
    UserInput(
      match input.username case None => None case Some(u) => Some(Trim(u)),
      match input.email case None => None case Some(e) => Some(Lower(e)),
      input.password,
      Some(input.avatarUrl.GetOr("")))
  }

  /** Every message a schema validator can give. */
  const ValidatorMessages: set<string> :=
    {"Username is required", "Username must be at least 3 characters", "Username cannot exceed 20 characters",
     "Email is required", "Please enter a valid email", "Password is required",
     "Password must be at least 6 characters"}

  /** The username validators, in declaration order: required, minlength 3, maxlength 20. */
  function UsernameError(u: Option<string>): (r: Option<string>)
    ensures r.None? <==> u.Some? && 3 <= Utf16Length(u.value) <= 20
    ensures r == Some("Username is required") <==> !Truthy(u)
    ensures r == Some("Username must be at least 3 characters") <==> Truthy(u) && Utf16Length(u.value) < 3
    ensures r == Some("Username cannot exceed 20 characters") <==> Truthy(u) && Utf16Length(u.value) > 20
    ensures r.Some? ==> r.value in ValidatorMessages
  {
    if !Truthy(u) then Some("Username is required")
    else if Utf16Length(u.value) < 3 then Some("Username must be at least 3 characters")
    else if Utf16Length(u.value) > 20 then Some("Username cannot exceed 20 characters")
    else None
  }

  /** The email validators: required, then the address pattern. */
  function EmailError(e: Option<string>, isEmail: string -> bool): (r: Option<string>)
    ensures r.None? <==> Truthy(e) && isEmail(e.value)
    ensures r == Some("Email is required") <==> !Truthy(e)
    ensures r == Some("Please enter a valid email") <==> Truthy(e) && !isEmail(e.value)
    ensures r.Some? ==> r.value in ValidatorMessages
  {
    if !Truthy(e) then Some("Email is required")
    else if !isEmail(e.value) then Some("Please enter a valid email")
    else None
  }

  /** The password validators: required, then minlength 6. */
  function PasswordError(p: Option<string>): (r: Option<string>)
    ensures r.None? <==> p.Some? && Utf16Length(p.value) >= 6
    ensures r == Some("Password is required") <==> !Truthy(p)
    ensures r == Some("Password must be at least 6 characters") <==> Truthy(p) && Utf16Length(p.value) < 6
    ensures r.Some? ==> r.value in ValidatorMessages
  {
    if !Truthy(p) then Some("Password is required")
    else if Utf16Length(p.value) < 6 then Some("Password must be at least 6 characters")
    else None
  }

  /** The first failing validator's message, paths taken in schema order. */
  function FirstError(input: UserInput, isEmail: string -> bool): (r: Option<string>)
    ensures UsernameError(input.username).Some? ==> r == UsernameError(input.username)
    ensures UsernameError(input.username).None? && EmailError(input.email, isEmail).Some? ==>
      r == EmailError(input.email, isEmail)
    ensures UsernameError(input.username).None? && EmailError(input.email, isEmail).None? ==>
      r == PasswordError(input.password)
    ensures r.None? <==>
      UsernameError(input.username).None? && EmailError(input.email, isEmail).None? && PasswordError(input.password).None?
    ensures r.Some? ==> r.value in ValidatorMessages
  {
    if UsernameError(input.username).Some? then UsernameError(input.username)
    else if EmailError(input.email, isEmail).Some? then EmailError(input.email, isEmail)
    else PasswordError(input.password)
  }

  /** What every stored user satisfies. */
  predicate ValidUser(u: UserRecord, isEmail: string -> bool) {
    && 3 <= Utf16Length(u.username) <= 20
    && Trim(u.username) == u.username
    && u.email != "" && Lower(u.email) == u.email && isEmail(u.email)
    && Utf16Length(u.password) >= 6
  }

  /** A user that passes validation is stored valid. */
  lemma PassedValidation(input: UserInput, isEmail: string -> bool)
    requires FirstError(Normalize(input), isEmail).None?
    ensures input.username.Some? && input.email.Some? && input.password.Some?
    ensures ValidUser(UserRecord("", Trim(input.username.value), Lower(input.email.value), input.password.value, ""), isEmail)
  {
    var n := Normalize(input);
    assert UsernameError(n.username).None? && EmailError(n.email, isEmail).None? && PasswordError(n.password).None?;
    TrimIdempotent(input.username.value);
    LowerIdempotent(input.email.value);
  }

  /** Constructing and validating a user: the setters run, then the validators;
      the first failure is the error. */
  function MakeUser(input: UserInput, id: string, isEmail: string -> bool): (r: Result<UserRecord>)
    ensures r.Err? <==> FirstError(Normalize(input), isEmail).Some?
    ensures r.Err? ==> r.error == FirstError(Normalize(input), isEmail).value
    ensures r.Err? ==> r.error in ValidatorMessages
    ensures r.Ok? ==>
      && ValidUser(r.value, isEmail)
      && r.value.id == id
      && r.value.username == Trim(input.username.value)
      && r.value.email == Lower(input.email.value)
      && r.value.password == input.password.value
      && r.value.avatarUrl == input.avatarUrl.GetOr("")
  {
    match FirstError(Normalize(input), isEmail)
    case Some(message) => Err(message)
    case None =>
      PassedValidation(input, isEmail);
      Ok(UserRecord(id, Trim(input.username.value), Lower(input.email.value), input.password.value,
                    input.avatarUrl.GetOr("")))
  }

  /** `findOne({ email })`: the first stored user, in natural order, with that email. */
  function FindByEmail(users: seq<UserRecord>, email: string): (r: Option<nat>)
    ensures r.Some? ==>
      && r.value < |users| && users[r.value].email == email
      && (forall j :: 0 <= j < r.value ==> users[j].email != email)
    ensures r.None? <==> forall j :: 0 <= j < |users| ==> users[j].email != email
    decreases |users|
  {
    if |users| == 0 then None
    else if users[0].email == email then Some(0)
    else
      assert forall j :: 1 <= j < |users| ==> users[j] == users[1..][j - 1];
      match FindByEmail(users[1..], email)
      case None => None
      case Some(i) => Some(i + 1)
  }

  /** `findByCredentials`: the user with that (lower-cased) email whose hash
      matches the password. An unknown email and a wrong password raise the
      same error. */
  function FindByCredentials(users: seq<UserRecord>, email: string, password: string,
                             matches: (string, string) -> bool): (r: Result<UserRecord>)
    ensures r.Err? ==> r.error == "Invalid login credentials"
    ensures r.Ok? <==>
      FindByEmail(users, Lower(email)).Some? && matches(password, users[FindByEmail(users, Lower(email)).value].password)
    ensures r.Ok? ==> r.value == users[FindByEmail(users, Lower(email)).value]
  {
    match FindByEmail(users, Lower(email))
    case None => Err("Invalid login credentials")
    case Some(i) =>
      if !matches(password, users[i].password) then Err("Invalid login credentials") else Ok(users[i])
  }

  /** Username problems are reported ahead of email and password problems,
      and email problems ahead of password problems. */
  lemma ValidationOrder(input: UserInput, id: string, isEmail: string -> bool)
    ensures var r := MakeUser(input, id, isEmail);
      && (UsernameError(Normalize(input).username).Some? ==>
            r == Err(UsernameError(Normalize(input).username).value))
      && (UsernameError(Normalize(input).username).None? && EmailError(Normalize(input).email, isEmail).Some? ==>
            r == Err(EmailError(Normalize(input).email, isEmail).value))
  {
  }

  /** A username of spaces around fewer than three characters fails the
      length check although it is longer before trimming. */
  lemma PaddedShortNameRejected(isEmail: string -> bool)
    ensures MakeUser(UserInput(Some("  ab  "), Some("a@b.co"), Some("secret"), None), "id", isEmail)
         == Err("Username must be at least 3 characters")
  {
    TrimPadded();
    assert Utf16Length("ab") == 2;
  }

  lemma TrimPadded()
    ensures Trim("  ab  ") == "ab"
  {
    TrimStartPadded();
    TrimEndPadded();
  }

  lemma TrimStartPadded()
    ensures TrimStart("  ab  ") == "ab  "
  {
    var s0: string := "  ab  ";
    var s1: string := " ab  ";
    var s2: string := "ab  ";
    assert IsJsSpace(' ') && !IsJsSpace('a');
    assert s0[0] == ' ' && s0[1..] == s1;
    assert s1[0] == ' ' && s1[1..] == s2;
    assert s2[0] == 'a' && TrimStart(s2) == s2;
  }

  lemma TrimEndPadded()
    ensures TrimEnd("ab  ") == "ab"
  {
    var s2: string := "ab  ";
    var t1: string := "ab ";
    var t2: string := "ab";
    assert IsJsSpace(' ') && !IsJsSpace('b');
    assert s2[|s2| - 1] == ' ' && s2[..|s2| - 1] == t1;
    assert t1[|t1| - 1] == ' ' && t1[..|t1| - 1] == t2;
    assert t2[|t2| - 1] == 'b' && TrimEnd(t2) == t2;
  }
}

=== FILE: wrappers.dfy ===
/** Optional values, standing in for the `null` / `undefined` the TypeScript code returns. */
module Wrappers {

  datatype Option<+T> = None | Some(value: T) {

    /** The value, or `default` when there is none (the `x || default` idiom). */
    function GetOr(default: T): T {
      match this
      case Some(v) => v
      case None => default
    }
  }

  /** The outcome of an operation that may throw: a value, or the thrown error's message. */
  datatype Result<+T> = Ok(value: T) | Err(error: string)

  /** JavaScript truthiness of an optional string: present and non-empty. */
  predicate Truthy(s: Option<string>) {
    s.Some? && s.value != ""
  }
}
